=== FILE: README.md ===
# ClearClause core in Dafny

ClearClause is a Streamlit document analyser. A user uploads a PDF, and its text is
extracted. Personal data (people, organisations, dates, places, phone numbers) is
redacted locally. Only the redacted text is sent to a Gemini model for a risk review. The
JSON the model returns is shown as a "Riskometer" dashboard and offered as a plain-text
report.

This project models the two pure cores under that plumbing.

- **The PII redactor and its summaries** (`privacy_guard.py`).
  - `redact_pii` takes the recognised entities with a redactable label and every phone
    match, drops duplicate spans, and sorts the spans in descending `(start, end)` order.
    It then splices the literal `[REDACTED]` into each span, from right to left.
  - `get_redaction_summary` counts the markers and builds a per-label breakdown.
  - `get_entity_details` lists the same entities with their text.
- **Response handling and report rendering** (`app.py`).
  - The prompt built around the redacted text.
  - The JSON window cut from the model's reply: first `{` to last `}`.
  - The success/error dictionary that `analyze_risks_with_gemini` returns, and how its
    caller reads it.
  - The upload flow that redacts and summarises the extracted text.
  - Three rules of `render_riskometer_dashboard`: the field defaults, the score band, and
    the downloadable text report.

Modules:

| file | module | contents |
|---|---|---|
| `text.dfy` | `TextOps` | Python string operations used by the code (clamping slices, `find`/`rfind`, `strip`, `join`), and `split`, with which the model states the report's lines |
| `spans.dfy` | `Spans` | `(start, end)` spans and `sorted(set(...), reverse=True)` |
| `splice.dfy` | `Splicing` | the right-to-left splice loop as a fold, a reference rewrite, and the `[REDACTED]` counter |
| `privacy_guard.dfy` | `PrivacyGuard` | `redact_pii`, `get_redaction_summary`, `get_entity_details` |
| `analysis.dfy` | `Analysis` | prompt, JSON window, `analyze_risks_with_gemini`, result dictionary, upload flow |
| `dashboard.dfy` | `Dashboard` | field defaults, score band, value rendering, text report |

The outside world is passed in as inputs.

- The spaCy recogniser's `doc.ents` is a sequence of `Entity(kind, start, end)`.
- The phone pattern's matches are a sequence of spans.
- Configuring the Gemini client and calling the model is a function `generate` from prompt
  to reply (or raised error).
- `json.loads` is a function `parse` from text to value (or decode error).
- `os.getenv("GEMINI_API_KEY")` is an optional string.
- `AnalyzeRisks` returns the prompts it sent alongside its result. This lets the model
  state when the Gemini model is called, and with what.

Facts about the code that the model keeps:

- The analysis calls one model, once per button press.
- Overlapping spans are neither merged nor resolved. They are spliced in the sorted order,
  and Python's clamping slices absorb positions that have moved.
- Every span becomes the same `[REDACTED]`, whatever its label.
- The dashboard's band puts a score of 50 in "Medium", while the scale written into the
  prompt calls 0–50 high risk (`Dashboard.ScoreBandVersusPromptScale`).
- The progress bar accepts `risk_score / 100` only as a fraction from 0.0 to 1.0, so a
  score outside 0–100 stops the dashboard before the text report is built. This range rule
  belongs to Streamlit's `st.progress`, which is not part of this model; it is stated as
  `Dashboard.ProgressAccepts`.

## Model

| member | source | states |
|---|---|---|
| TextOps.Prefix | privacy_guard.py:108 | `text[:i]` clamps: its length is the smaller of `i` and the text's length |
| TextOps.Suffix | privacy_guard.py:108 | `text[j:]` clamps: it is empty once `j` passes the end |
| TextOps.Find | app.py:312 | `find('{')` is -1 exactly when the character is absent; otherwise it is the first index holding it |
| TextOps.RFind | app.py:313 | `rfind('}')` is -1 exactly when the character is absent; otherwise it is the last index holding it |
| TextOps.Strip | app.py:309 | `strip()` returns a contiguous piece of the text, with only whitespace cut from either end and no whitespace left at either end |
| TextOps.Join | app.py:243 | `sep.join` of no pieces is empty, and otherwise the result starts with the first piece |
| TextOps.JoinAppend | app.py:243 | joining two non-empty line lists equals joining each and putting the separator between |
| TextOps.SplitJoin | app.py:243 | splitting a newline-joined list of newline-free lines gives back the lines |
| Spans.Insert | privacy_guard.py:103 | inserting a span into a strictly descending list keeps it strictly descending and adds exactly that span |
| Spans.Normalize | privacy_guard.py:103 | `sorted(set(xs), reverse=True)` is strictly descending in tuple order and holds exactly the spans of `xs` |
| Spans.DescendingUnique | privacy_guard.py:103 | two strictly descending lists with the same spans are equal |
| Spans.NormalizeBySet | privacy_guard.py:103 | the sorted, de-duplicated list depends only on which spans were detected, not on their order or repetition |
| Splicing.SpliceAll | privacy_guard.py:105-108 | the loop: each span in list order is spliced into the text the earlier splices produced. What it computes is stated by `Splicing.SpliceAllIsReplace` |
| Splicing.Splice | privacy_guard.py:108 | one splice keeps the text before the span start and inserts exactly the marker's length |
| Splicing.SpliceAllKeepsPrefix | privacy_guard.py:105-108 | splicing spans that all start at or after `m` leaves the first `m` characters unchanged |
| Splicing.EachSpliceSeesOriginal | privacy_guard.py:105-108 | when the right-to-left loop reaches a span, the characters under it are still the original ones at the original indices |
| Splicing.SpliceAllFrame | privacy_guard.py:105-108 | splices confined to a prefix carry any following text along unchanged |
| Splicing.SpliceAllStep | privacy_guard.py:105-108 | the loop's result is the later splices applied to the text before the first span, followed by the marker and the text after that span |
| Splicing.SpliceAllIsReplace | privacy_guard.py:105-108 | for non-overlapping spans listed right to left, the loop equals the reference rewrite that replaces each span by the marker and copies everything else in order |
| Splicing.ReplaceWithOriginals | privacy_guard.py:106-108 | filling every span with its own characters reproduces the text, so the rewrite keeps all characters outside the spans in their order |
| Splicing.CountMarker | privacy_guard.py:137 | the number of non-overlapping `[REDACTED]` matches found left to right; that many markers fit in the text |
| Splicing.NoBracketNoMarker | privacy_guard.py:137 | a text without `[` has no marker occurrence |
| Splicing.CountAroundMarker | privacy_guard.py:137 | a marker placed between two texts adds exactly one non-overlapping occurrence |
| Splicing.ReplaceMarkerCount | privacy_guard.py:106-108 | with no `[` in the original, the rewrite holds exactly one marker per span |
| PrivacyGuard.EntitySpans | privacy_guard.py:91-93 | a span is collected exactly when some recognised entity with label PERSON, ORG, DATE or GPE covers it |
| PrivacyGuard.RedactionPlan | privacy_guard.py:88-103 | the spans spliced are strictly descending and are exactly the redactable entity spans plus every phone match |
| PrivacyGuard.RedactPii | privacy_guard.py:64-110 | empty text is returned unchanged, and so is any text with nothing to redact |
| PrivacyGuard.NormalizeRightToLeft | privacy_guard.py:103-108 | pairwise-disjoint detected spans, once sorted, are listed right to left |
| PrivacyGuard.RedactBySpanSet | privacy_guard.py:103 | two detections yielding the same set of spans redact a text identically, so duplicates are applied once |
| PrivacyGuard.RedactKeepsPrefix | privacy_guard.py:105-108 | the text before the smallest span start is unchanged, even when spans overlap |
| PrivacyGuard.RedactNonOverlapping | privacy_guard.py:105-110 | for non-overlapping spans, the output is the input with each span replaced by exactly `[REDACTED]` and every other character kept in order, and (with no `[` in the input) it holds one marker per distinct span |
| PrivacyGuard.CountLabels | privacy_guard.py:143-146 | the per-label map has a key exactly for each redactable label that occurs, holding its number of entities |
| PrivacyGuard.GetRedactionSummary | privacy_guard.py:113-157 | empty text gives 0 and an empty breakdown. Otherwise the total is the marker count of the redacted text, and only redactable labels appear with their counts. `PHONE` is present exactly when there are phone matches, holding their number |
| PrivacyGuard.SummaryTotalCountsDistinctSpans | privacy_guard.py:137 | for non-overlapping spans and no `[` in the text, the total equals the number of distinct spans redacted |
| PrivacyGuard.SummaryTotalMayDisagreeWithBreakdown | privacy_guard.py:137-152 | a span matched both as DATE and as phone is redacted once but counted under both labels: total 1, breakdown sum 2 |
| PrivacyGuard.RedactableEnts | privacy_guard.py:183-190 | no entities give an empty list; each listed entity is redactable, and position by position the list has the spans the redactor collects |
| PrivacyGuard.RedactableEntsMembers | privacy_guard.py:183-190 | the list holds only entities the recognizer returned, and every returned entity labelled PERSON, ORG, DATE or GPE is in it |
| PrivacyGuard.EntityDetailList | privacy_guard.py:183-190 | one entry per entry of `RedactableEnts`, at the same position (whose order and count the next three rows fix); each entry carries that entity's own label and offsets, and the text under those offsets |
| PrivacyGuard.RedactableEntsSnoc | privacy_guard.py:183-190 | appending an entity to the recognizer's list appends it to the filtered list exactly when it is labelled PERSON, ORG, DATE or GPE, and appends nothing otherwise; with the empty list giving the empty list, this fixes the filter's order and multiplicity |
| PrivacyGuard.EntitySpansSnoc | privacy_guard.py:91-93 | the same append step for the spans the redactor collects from the entities |
| PrivacyGuard.RedactableEntsCount | privacy_guard.py:183-190 | the filtered list has as many entries as the recognizer returned PERSON, ORG, DATE and GPE entities together |
| PrivacyGuard.EntityDetailsTotal | privacy_guard.py:177-205 | for a non-empty text, `total_entities` is the number of PERSON, ORG, DATE and GPE entities plus the number of phone matches |
| PrivacyGuard.PhoneDetailList | privacy_guard.py:193-200 | one entry per phone match, labelled `PHONE`, with its offsets and matched text |
| PrivacyGuard.GetEntityDetails | privacy_guard.py:160-205 | the total equals the list length. Empty text gives an empty list. Entries before the phone block are exactly those not labelled `PHONE`, and each carries the label of the redactable entity at its position. Each entry's text is the text under its offsets |
| PrivacyGuard.DetailSpansAreCollected | privacy_guard.py:183-200 | the details list the spans the redactor collects, in the same order: redactable entities first, then phone matches |
| PrivacyGuard.DetailsMatchRedactions | privacy_guard.py:183-200 | the spans listed as details are exactly the spans the redactor splices |
| Analysis.BuildPrompt | app.py:285-305 | the prompt is the fixed instructions, then the `---DOCUMENT---` line, then the redacted text verbatim and a final newline |
| Analysis.PromptRoundTrip | app.py:303-304 | the document part of a prompt gives back exactly the embedded text |
| Analysis.PromptInjective | app.py:285-305 | different texts give different prompts |
| Analysis.NoBracePair | app.py:315 | when there is no `{`, no `}`, or the first `{` is after the last `}`, no `{` precedes any `}` |
| Analysis.JsonWindow | app.py:312-322 | no window exactly when no `{` precedes a `}`. Otherwise the window starts with `{`, ends with `}`, and is a contiguous piece of the reply |
| Analysis.FindPadded | app.py:309-312 | text around the reply that lacks the character leaves `find`'s answer unchanged, only shifted by the padding's length |
| Analysis.RFindPadded | app.py:309-313 | the same for `rfind` |
| Analysis.WindowFromPadded | app.py:315-322 | shifting both brace positions past the padding selects the same window |
| Analysis.WindowPadded | app.py:309-322 | padding a reply with text free of braces leaves its window unchanged |
| Analysis.StripPads | app.py:309 | the reply is leading whitespace, then the stripped reply, then trailing whitespace |
| Analysis.StripKeepsWindow | app.py:309-322 | stripping the reply first does not change the JSON window |
| Analysis.AnalyzeRisks | app.py:261-341 | a missing or empty key fails with the key error, and then no prompt is sent. Otherwise exactly one prompt, built from the redacted text, is sent. Success holds exactly when the call answers, a window exists and it parses, and the parsed value is returned. No window gives "No valid JSON found in AI response". A raised call gives "Error analyzing document: " followed by its message. A decode error gives "Failed to parse AI response as JSON: " followed by its message |
| Analysis.ResultDict | app.py:274-341 | every dictionary has `success`, which is true exactly when `analysis_json` is present and false exactly when `error` is present, and nothing else |
| Analysis.AsJson | app.py:468 | a dictionary value read as JSON is truthy exactly as Python judges it: a true boolean, a non-empty string, or a truthy JSON value |
| Analysis.ReadResult | app.py:466-475 | a truthy `success` reads as the stored analysis, and only then; a missing `analysis_json` then gives nothing. Otherwise the stored `error` text is shown, or "Unknown error occurred" when there is none |
| Analysis.ResultDictRoundTrip | app.py:466-475 | the caller reads back exactly the result that was returned |
| Analysis.ProcessUpload | app.py:376-386 | a session is kept exactly when the extracted text is present, non-empty and not the no-text stand-in; it holds that text, its redaction, and the redaction summary computed from the two |
| Analysis.AnalyzeSession | app.py:464-466 | the button sends one prompt, built from the session's redacted text, unless the key is missing; then it sends nothing and fails with the key error |
| Analysis.OnlyRedactedTextIsSent | app.py:466 | every prompt sent for an uploaded document starts with the fixed instructions and carries exactly the redaction of the extracted text |
| Dashboard.ReadFields | app.py:147-152 | each field is the object's value when present, otherwise 0, "Unknown", "No summary available" or an empty list |
| Dashboard.ReadFieldsRoundTrip | app.py:147-152 | reading an object holding all six fields gives those fields back |
| Dashboard.ReadFieldsIgnoresOtherKeys | app.py:147-152 | keys other than the six do not affect what is read |
| Dashboard.ScoreBand | app.py:174-182 | above 80 is Safe, 50 through 80 is Medium, below 50 is Risky; each score is in exactly one band |
| Dashboard.ScoreBandMonotone | app.py:174-182 | a higher score never falls into a riskier band |
| Dashboard.ScoreBandVersusPromptScale | app.py:289-299 | the dashboard band and the prompt's scale agree on all scores 0–100 except 50, which the prompt calls High and the dashboard Medium |
| Dashboard.ScoreBandOf | app.py:171-182 | integer and boolean scores get a band; for any other value the division and the comparison raise |
| Analysis.Truthy | app.py:197 | a value is falsy exactly when it is `None`, `False`, `0`, or an empty string, list or object |
| Dashboard.RiskItems | app.py:197-219 | a falsy value shows no items, and a list shows its items. A non-empty string shows its one-character strings, in order; numbers, booleans and objects that are truthy cannot be iterated |
| Dashboard.Digits | app.py:238 | the decimal text of a natural number is non-empty, all digits, denotes that number, and starts with `0` only for zero |
| Dashboard.IntText | app.py:238 | `str()` of an integer is its digits, with a leading minus for a negative number; the digits denote its magnitude and have no leading zero |
| Dashboard.Show | app.py:238-240 | `str()` in the f-strings: a string shows as itself, an integer as its decimal text without leading zeros, `None`, `True` and `False` by name |
| Dashboard.Bullets | app.py:243 | each risk becomes one line, `- ` followed by the risk, in the original order |
| Dashboard.SectionText | app.py:243-249 | a section is "None identified" for an empty list, otherwise the bullet lines joined by newlines |
| Dashboard.HeaderText | app.py:235-242 | the report header is the title, rule, blank line, score, level and summary lines, a blank line and the first heading, joined by newlines |
| Dashboard.TextReport | app.py:235-250 | the report text ends with a line break; its full layout is stated by `Dashboard.ReportIsJoinedLines` and `Dashboard.ReportLayout` |
| Dashboard.ReportIsJoinedLines | app.py:235-250 | the report text is its layout lines joined by newlines |
| Dashboard.ReportLayout | app.py:235-250 | when no rendered value spans lines, the report's lines are the fixed header, then each heading followed by "None identified" or one `- ` line per risk in order, then a final empty line |
| Dashboard.RenderReport | app.py:136-250 | a report is produced exactly when the score can be banded, the progress bar accepts it, and the three risk values can be iterated |
| Dashboard.MissingFieldsReport | app.py:147-250 | an analysis object lacking all six fields renders the report with score 0, level "Unknown", summary "No summary available" and empty sections |
| Dashboard.RenderedReport | app.py:147-250 | an object with a score from 0 to 100, text fields and lists of risk strings always gets a report, built from the score's digits and the texts as given |
| Dashboard.RenderedReportLayout | app.py:235-250 | for such an object with one-line texts and risks, the rendered report splits into exactly the layout lines |
| Dashboard.NoRisksLayout | app.py:242-249 | with no risks, each of the three sections reads "None identified" |

## Left out

- The Streamlit page (styling, tabs, metrics, the progress bar's drawing, info boxes, session state, download buttons) is presentation and is not modelled. Only the range of values the progress bar accepts is kept, because it decides whether the text report is offered.
- PDF text extraction with PyPDF2 is a library wrapper. Its outcome is an input to `Analysis.ProcessUpload`: absent on error, or the stripped text or the no-text stand-in.
- Loading or downloading the spaCy model is process and library work. The recogniser's entities are an input.
- The phone regular expression is not encoded. Its matches are an input, taken as the same list for `re.finditer` and `re.findall`, since both run the same pattern over the same text.
- The Gemini network call, `genai.configure` and `os.getenv` are foreign calls and are inputs.
- `json.loads` and `json.dumps` are library parsing. Only the window selection is modelled, with parse success or failure as an input. The JSON download is not modelled.
- `progress_value = risk_score / 100` is floating point. Only whether the fraction lies from 0.0 to 1.0 is modelled. JSON floats are not part of the value type.
- Type checks (`isinstance(text, str)`, a non-dictionary `analysis_json`) are not modelled, because the model's inputs are typed.
- Recognition runs again inside `get_redaction_summary` and `get_entity_details`. The model passes the same entity list to all three functions, treating recognition of the same text as repeatable.
- Analysis.AnalyzeRisks: every exception from the call or from reading the reply text is one `Raised` outcome of `generate`. The two `except` messages are kept as prefixes of the error text, followed by the message the input supplies; Python's own exception formatting is not modelled.
- Analysis.ReadResult: a non-string `error` value would be shown through `str()`; the model shows the stock message for it instead. `ResultDict` only ever stores a string there.
- Dashboard.RiskItems: a truthy JSON object used as a risk list would be iterated over its keys in insertion order. Dafny maps carry no order, so such a value is treated as not renderable.
- Dashboard.Show: the text of lists and objects inside f-strings (Python's `repr` of nested values) is an input function, not modelled character by character.
- PrivacyGuard.RedactNonOverlapping: the exact replacement content is proved only for pairwise-disjoint spans. Overlapping spans are spliced as the code does, but for them only `PrivacyGuard.RedactKeepsPrefix` is proved.

=== FILE: analysis.dfy ===
/**
 * `analyze_risks_with_gemini` and the steps of the upload flow around it:
 * the prompt, the brace-window extraction of the reply, and the result
 * dictionary. The remote model and `json.loads` are passed in as functions;
 * the result records which prompts were sent, so that "no call was made"
 * and "only the redacted text was sent" can be stated.
 */
module Analysis {
  import opened TextOps
  import opened Spans
  import opened PrivacyGuard

  /** A parsed JSON value (numbers other than integers are not modelled). */
  datatype Json =
    | JNull
    | JBool(flag: bool)
    | JInt(number: int)
    | JStr(chars: string)
    | JArr(items: seq<Json>)
    | JObj(fields: map<string, Json>)

  /** The JSON values Python treats as false. */
  const FalsyValues: set<Json> := {JNull, JBool(false), JInt(0), JStr([]), JArr([]), JObj(map[])}

  /** Python truthiness of a JSON value: false exactly for the empty and zero values. */
  predicate Truthy(v: Json): (r: bool)
    ensures r <==> v !in FalsyValues
  {
    match v
    case JNull => false
    case JBool(b) => b
    case JInt(n) => n != 0
    case JStr(s) => |s| > 0
    case JArr(xs) => |xs| > 0
    case JObj(m) => |m| > 0
  }

  /** What `json.loads` does with a string: a value, or a `JSONDecodeError` message. */
  datatype ParseResult = Parsed(value: Json) | DecodeError(message: string)

  /** What the model call does: a reply text, or an exception with its message. */
  datatype Reply = Reply(text: string) | Raised(message: string)

  /** The two shapes of the returned dictionary. */
  datatype AnalysisResult = Success(analysisJson: Json) | Failure(error: string)

  /** The analysis outcome together with every prompt handed to the model. */
  datatype Analyzed = Analyzed(result: AnalysisResult, promptsSent: seq<string>)

  const MissingKeyError: string := "GEMINI_API_KEY not found. Please set it in your environment variables."
  const NoJsonError: string := "No valid JSON found in AI response"
  const ParseErrorPrefix: string := "Failed to parse AI response as JSON: "
  const CallErrorPrefix: string := "Error analyzing document: "

  /** The line that separates the instructions from the document. */
  const DocumentMarker: string := "---DOCUMENT---\n"

  /** The fixed instructions sent before the document, ending with the marker line. */
  const PromptPreamble: string :=
    "Analyze the following redacted document and provide a JSON response with this exact structure:\n"
    + "\n"
    + "{\n"
    + "  \"risk_score\": <number 0-100>,\n"
    + "  \"risk_level\": \"<High/Medium/Low based on score: 0-50=High, 51-80=Medium, 81-100=Low>\",\n"
    + "  \"summary\": \"<one sentence summary of overall risk>\",\n"
    + "  \"financial_risks\": [<list of specific financial risks identified>],\n"
    + "  \"privacy_risks\": [<list of specific privacy risks identified>],\n"
    + "  \"legal_risks\": [<list of specific legal risks identified>]\n"
    + "}\n"
    + "\n"
    + "Scoring guidelines:\n"
    + "- 0-50: High Risk (Multiple concerning issues)\n"
    + "- 51-80: Medium Risk (Some areas of concern)\n"
    + "- 81-100: Low Risk (Generally safe)\n"
    + "\n"
    + "Be concise and specific in identifying risks. Return ONLY valid JSON, no other text.\n"
    + "\n"
    + DocumentMarker

  /** The prompt for a document: the instructions, the document, a final newline. */
  function BuildPrompt(document: string): (p: string)
    ensures |p| == |PromptPreamble| + |document| + 1
    ensures p[..|PromptPreamble|] == PromptPreamble
    ensures p[|PromptPreamble| - |DocumentMarker|..|PromptPreamble|] == DocumentMarker
    ensures p[|p| - 1] == '\n'
  {
    PromptPreamble + document + "\n"
  }

  /** Reads the document back out of a prompt. */
  function PromptDocument(p: string): string
    requires |p| > |PromptPreamble|
  {
    p[|PromptPreamble|..|p| - 1]
  }

  /** The document sits verbatim right after the marker line, and nothing else does. */
  lemma PromptRoundTrip(document: string)
    ensures PromptDocument(BuildPrompt(document)) == document
  {
    var p := BuildPrompt(document);
    assert p == PromptPreamble + document + "\n";
    assert p[|PromptPreamble|..|p| - 1] == document;
  }

  /** Different documents give different prompts. */
  lemma PromptInjective(a: string, b: string)
    requires BuildPrompt(a) == BuildPrompt(b)
    ensures a == b
  {
    PromptRoundTrip(a);
    PromptRoundTrip(b);
  }

  /** The API key counts as missing when unset or empty (`if not api_key`). */
  predicate KeyMissing(apiKey: Option<string>) {
    apiKey.None? || apiKey.value == ""
  }

  /** `w` sits at offset `k` of `s`, with no `{` before it and no `}` after it. */
  predicate WindowAt(s: string, k: nat, w: string) {
    && k + |w| <= |s|
    && s[k..k + |w|] == w
    && (forall j :: 0 <= j < k ==> s[j] != '{')
    && (forall j :: k + |w| <= j < |s| ==> s[j] != '}')
  }

  /** Some `{` comes at or before some `}`. */
  predicate HasBracePair(s: string) {
    exists i, j :: 0 <= i <= j < |s| && s[i] == '{' && s[j] == '}'
  }

  /** When `find` and `rfind` give no usable pair, no `{` precedes a `}`. */
  lemma NoBracePair(s: string)
    requires var first, last := Find(s, '{'), RFind(s, '}');
             first == -1 || last == -1 || first > last
    ensures !HasBracePair(s)
  {
    forall i, j | 0 <= i <= j < |s| && s[i] == '{'
      ensures s[j] != '}'
    {
      assert '{' in s;
      if s[j] == '}' {
        assert '}' in s;
      }
    }
  }

  /**
   * The brace window: from the first `{` through the last `}`, or nothing
   * when either is missing or the first `{` follows the last `}`.
   */
  function JsonWindow(response: string): (r: Option<string>)
    ensures r.None? <==> !HasBracePair(response)
    ensures r.Some? ==> |r.value| >= 2 && r.value[0] == '{' && r.value[|r.value| - 1] == '}'
    ensures r.Some? ==> exists k :: WindowAt(response, k, r.value)
  {
    var first := Find(response, '{');
    var last := RFind(response, '}');
    if first == -1 || last == -1 || first > last then
      NoBracePair(response);
      None
    else
      var w := response[first..last + 1];
      assert WindowAt(response, first, w);
      Some(w)
  }

  /** The window from the positions `find` and `rfind` report. */
  function WindowFrom(s: string, first: int, last: int): Option<string>
    requires -1 <= first < |s| && -1 <= last < |s|
  {
    if first == -1 || last == -1 || first > last then None else Some(s[first..last + 1])
  }

  /**
   * `JsonWindow` without its contract: the window from the `find('{')` and
   * `rfind('}')` positions, the form the padding lemmas below work on.
   */
  function BraceWindow(s: string): Option<string> {
    WindowFrom(s, Find(s, '{'), RFind(s, '}'))
  }

  lemma JsonWindowIsBraceWindow(s: string)
    ensures JsonWindow(s) == BraceWindow(s)
  {
  }

  /** Text around `x` that lacks `c` does not change where `find` meets `c`, only shifts it. */
  lemma FindPadded(a: string, x: string, b: string, c: char)
    requires c !in a && c !in b
    ensures Find(a + x + b, c) == Shift(a, Find(x, c))
  {
    var s := a + x + b;
    assert forall j :: 0 <= j < |a| ==> s[j] == a[j];
    assert forall j :: 0 <= j < |x| ==> s[|a| + j] == x[j];
    assert forall j :: |a| + |x| <= j < |s| ==> s[j] == b[j - |a| - |x|];
  }

  /** Text around `x` that lacks `c` does not change where `rfind` meets `c`, only shifts it. */
  lemma RFindPadded(a: string, x: string, b: string, c: char)
    requires c !in a && c !in b
    ensures RFind(a + x + b, c) == Shift(a, RFind(x, c))
  {
    var s := a + x + b;
    assert forall j :: 0 <= j < |a| ==> s[j] == a[j];
    assert forall j :: 0 <= j < |x| ==> s[|a| + j] == x[j];
    assert forall j :: |a| + |x| <= j < |s| ==> s[j] == b[j - |a| - |x|];
  }

  /** A position in `x`, as seen in `a + x + b`; -1 stays -1. */
  function Shift(a: string, k: int): int {
    if k == -1 then -1 else |a| + k
  }

  /** Shifting both positions past the padding selects the same window. */
  lemma WindowFromPadded(a: string, x: string, b: string, f: int, l: int)
    requires -1 <= f < |x| && -1 <= l < |x|
    ensures WindowFrom(a + x + b, Shift(a, f), Shift(a, l)) == WindowFrom(x, f, l)
  {
    if f != -1 && l != -1 && f <= l {
      var s := a + x + b;
      assert s[|a| + f..|a| + l + 1] == x[f..l + 1];
    }
  }

  /** Padding without braces on either side leaves the window unchanged. */
  lemma WindowPadded(a: string, x: string, b: string)
    requires '{' !in a && '}' !in a && '{' !in b && '}' !in b
    ensures BraceWindow(a + x + b) == BraceWindow(x)
  {
    FindPadded(a, x, b, '{');
    RFindPadded(a, x, b, '}');
    WindowFromPadded(a, x, b, Find(x, '{'), RFind(x, '}'));
  }

  /** Whitespace holds no brace. */
  lemma NoBraceInSpace(p: string)
    requires AllSpace(p)
    ensures '{' !in p && '}' !in p
  {
    forall i | 0 <= i < |p| ensures p[i] != '{' && p[i] != '}' {
      assert IsSpace(p[i]);
    }
  }

  /** The stripped reply sits between two runs of whitespace. */
  lemma StripPads(s: string)
    ensures StripStart(s) + |Strip(s)| <= |s|
    ensures s == s[..StripStart(s)] + Strip(s) + s[StripStart(s) + |Strip(s)|..]
    ensures AllSpace(s[..StripStart(s)]) && AllSpace(s[StripStart(s) + |Strip(s)|..])
  {
    ThreePieces(s, StripStart(s), StripStart(s) + |Strip(s)|);
  }

  /** Trimming whitespace off the reply does not move the brace window. */
  lemma StripKeepsWindow(s: string)
    ensures JsonWindow(Strip(s)) == JsonWindow(s)
  {
    var t, lo := Strip(s), StripStart(s);
    StripPads(s);
    var a, b := s[..lo], s[lo + |t|..];
    NoBraceInSpace(a);
    NoBraceInSpace(b);
    WindowPadded(a, t, b);
    JsonWindowIsBraceWindow(s);
    JsonWindowIsBraceWindow(t);
  }

  /**
   * `analyze_risks_with_gemini(redacted_text)`. `generate` stands for
   * configuring the client and calling the model with a prompt; `parse`
   * stands for `json.loads`.
   */
  function AnalyzeRisks(apiKey: Option<string>, redactedText: string,
                        generate: string -> Reply, parse: string -> ParseResult): (a: Analyzed)
    ensures KeyMissing(apiKey) <==> a.promptsSent == []
    ensures KeyMissing(apiKey) ==> a.result == Failure(MissingKeyError)
    ensures !KeyMissing(apiKey) ==> a.promptsSent == [BuildPrompt(redactedText)]
    ensures a.result.Failure? ==> |a.result.error| > 0
    ensures a.result.Success? <==>
              && !KeyMissing(apiKey)
              && generate(BuildPrompt(redactedText)).Reply?
              && JsonWindow(generate(BuildPrompt(redactedText)).text).Some?
              && parse(JsonWindow(generate(BuildPrompt(redactedText)).text).value).Parsed?
    ensures a.result.Success? ==>
              a.result.analysisJson
              == parse(JsonWindow(generate(BuildPrompt(redactedText)).text).value).value
    ensures !KeyMissing(apiKey) && generate(BuildPrompt(redactedText)).Reply?
            && JsonWindow(generate(BuildPrompt(redactedText)).text).None? ==>
              a.result == Failure(NoJsonError)
    ensures !KeyMissing(apiKey) && generate(BuildPrompt(redactedText)).Raised? ==>
              a.result == Failure(CallErrorPrefix + generate(BuildPrompt(redactedText)).message)
    ensures !KeyMissing(apiKey) && generate(BuildPrompt(redactedText)).Reply?
            && JsonWindow(generate(BuildPrompt(redactedText)).text).Some?
            && parse(JsonWindow(generate(BuildPrompt(redactedText)).text).value).DecodeError? ==>
              a.result == Failure(ParseErrorPrefix
                                  + parse(JsonWindow(generate(BuildPrompt(redactedText)).text).value).message)
  {
    if KeyMissing(apiKey) then Analyzed(Failure(MissingKeyError), [])
    else
      var prompt := BuildPrompt(redactedText);
      var sent := [prompt];
      match generate(prompt)
      case Raised(msg) => Analyzed(Failure(CallErrorPrefix + msg), sent)
      case Reply(text) =>
        StripKeepsWindow(text);
        match JsonWindow(Strip(text))
        case None => Analyzed(Failure(NoJsonError), sent)
        case Some(w) =>
          match parse(w)
          case DecodeError(msg) => Analyzed(Failure(ParseErrorPrefix + msg), sent)
          case Parsed(j) => Analyzed(Success(j), sent)
  }

  /** A value of the returned dictionary. */
  datatype DictValue = DBool(flag: bool) | DStr(text: string) | DJson(json: Json)

  /** The dictionary `analyze_risks_with_gemini` returns. */
  function ResultDict(r: AnalysisResult): (d: map<string, DictValue>)
    ensures "success" in d && d["success"].DBool?
    ensures d["success"] == DBool(true) <==> "analysis_json" in d
    ensures d["success"] == DBool(false) <==> "error" in d
    ensures |d| == 2
  {
    match r
    case Success(j) =>
      var d := map["analysis_json" := DJson(j), "success" := DBool(true)];
      assert d.Keys == {"analysis_json", "success"};
      d
    case Failure(e) =>
      var d := map["error" := DStr(e), "success" := DBool(false)];
      assert d.Keys == {"error", "success"};
      d
  }

  /** The JSON value a dictionary value stands for; truthiness carries over. */
  function AsJson(v: DictValue): (j: Json)
    ensures v.DJson? ==> j == v.json
    ensures Truthy(j) <==> (v.DBool? && v.flag) || (v.DStr? && |v.text| > 0) || (v.DJson? && Truthy(v.json))
  {
    match v
    case DBool(b) => JBool(b)
    case DStr(t) => JStr(t)
    case DJson(j) => j
  }

  /** `result.get("success")` used as a condition: a missing key reads as `None`, which is false. */
  predicate Succeeded(d: map<string, DictValue>) {
    "success" in d && Truthy(AsJson(d["success"]))
  }

  /**
   * How the caller reads the dictionary: on a truthy `success` it takes
   * `analysis_json`, otherwise it shows `error`, or a stock message when
   * there is none. Nothing when `analysis_json` would be missing.
   */
  function ReadResult(d: map<string, DictValue>): (r: Option<AnalysisResult>)
    ensures r.None? <==> Succeeded(d) && "analysis_json" !in d
    ensures r.Some? && r.value.Success? <==> Succeeded(d) && "analysis_json" in d
    ensures r.Some? && r.value.Success? ==> r.value.analysisJson == AsJson(d["analysis_json"])
    ensures !Succeeded(d) && "error" in d && d["error"].DStr? ==> r == Some(Failure(d["error"].text))
    ensures !Succeeded(d) && "error" !in d ==> r == Some(Failure("Unknown error occurred"))
  {
    if Succeeded(d) then
      if "analysis_json" in d then Some(Success(AsJson(d["analysis_json"]))) else None
    else if "error" in d && d["error"].DStr? then Some(Failure(d["error"].text))
    else Some(Failure("Unknown error occurred"))
  }

  /** The caller recovers exactly the result that was returned. */
  lemma ResultDictRoundTrip(r: AnalysisResult)
    ensures ReadResult(ResultDict(r)) == Some(r)
  {
  }

  /** Text extraction's stand-in for a PDF without text. */
  const NoTextFound: string := "No text found in PDF"

  /** What the upload flow keeps per document. */
  datatype Session = Session(extractedText: string, redactedText: string, summary: RedactionSummary)

  /**
   * The upload flow: text that was extracted (and is not the no-text
   * stand-in) is redacted and summarised; otherwise no new session is made.
   */
  function ProcessUpload(extracted: Option<string>, ents: seq<Entity>, phones: seq<Span>): (r: Option<Session>)
    ensures r.Some? <==> extracted.Some? && extracted.value != "" && extracted.value != NoTextFound
    ensures r.Some? ==> r.value.extractedText == extracted.value
    ensures r.Some? ==> r.value.redactedText == RedactPii(extracted.value, ents, phones)
    ensures r.Some? ==> r.value.summary == GetRedactionSummary(extracted.value, r.value.redactedText, ents, phones)
  {
    match extracted
    case None => None
    case Some(text) =>
      if text == "" || text == NoTextFound then None
      else
        var redacted := RedactPii(text, ents, phones);
        Some(Session(text, redacted, GetRedactionSummary(text, redacted, ents, phones)))
  }

  /**
   * The analyze button: the session's redacted text goes to the analyzer,
   * once, unless the key is missing.
   */
  function AnalyzeSession(s: Session, apiKey: Option<string>,
                          generate: string -> Reply, parse: string -> ParseResult): (a: Analyzed)
    ensures KeyMissing(apiKey) ==> a.promptsSent == [] && a.result == Failure(MissingKeyError)
    ensures !KeyMissing(apiKey) ==> a.promptsSent == [BuildPrompt(s.redactedText)]
  {
    AnalyzeRisks(apiKey, s.redactedText, generate, parse)
  }

  /**
   * Only the redacted text leaves: every prompt sent for an uploaded
   * document carries the redaction of its text, and nothing else, as its
   * document part.
   */
  lemma OnlyRedactedTextIsSent(extracted: Option<string>, ents: seq<Entity>, phones: seq<Span>,
                               apiKey: Option<string>, generate: string -> Reply,
                               parse: string -> ParseResult)
    requires ProcessUpload(extracted, ents, phones).Some?
    ensures forall p :: p in AnalyzeSession(ProcessUpload(extracted, ents, phones).value,
                                            apiKey, generate, parse).promptsSent ==>
              |p| > |PromptPreamble|
              && p[..|PromptPreamble|] == PromptPreamble
              && PromptDocument(p) == RedactPii(extracted.value, ents, phones)
  {
    var session := ProcessUpload(extracted, ents, phones).value;
    var redacted := RedactPii(extracted.value, ents, phones);
    assert session.redactedText == redacted;
    var a := AnalyzeRisks(apiKey, redacted, generate, parse);
    assert a == AnalyzeSession(session, apiKey, generate, parse);
    PromptRoundTrip(redacted);
    forall p | p in a.promptsSent
      ensures |p| > |PromptPreamble| && p[..|PromptPreamble|] == PromptPreamble
      ensures PromptDocument(p) == redacted
    {
      assert p == BuildPrompt(redacted);
    }
  }
}

=== FILE: dashboard.dfy ===
/**
 * The non-visual rules of `render_riskometer_dashboard`: the field defaults,
 * the score band and the downloadable text report.
 */
module Dashboard {
  import opened TextOps
  import opened Analysis

  /** The six fields the dashboard reads, after `dict.get` defaults. */
  datatype RiskFields = RiskFields(riskScore: Json, riskLevel: Json, summary: Json,
                                   financialRisks: Json, privacyRisks: Json, legalRisks: Json)

  const DefaultScore: Json := JInt(0)
  const DefaultLevel: Json := JStr("Unknown")
  const DefaultSummary: Json := JStr("No summary available")
  const DefaultRisks: Json := JArr([])

  function GetOr(data: map<string, Json>, key: string, default: Json): Json {
    if key in data then data[key] else default
  }

  /** Reads the analysis object, each missing field replaced by its default. */
  function ReadFields(data: map<string, Json>): (f: RiskFields)
    ensures "risk_score" in data ==> f.riskScore == data["risk_score"]
    ensures "risk_score" !in data ==> f.riskScore == JInt(0)
    ensures "risk_level" in data ==> f.riskLevel == data["risk_level"]
    ensures "risk_level" !in data ==> f.riskLevel == JStr("Unknown")
    ensures "summary" in data ==> f.summary == data["summary"]
    ensures "summary" !in data ==> f.summary == JStr("No summary available")
    ensures "financial_risks" in data ==> f.financialRisks == data["financial_risks"]
    ensures "financial_risks" !in data ==> f.financialRisks == JArr([])
    ensures "privacy_risks" in data ==> f.privacyRisks == data["privacy_risks"]
    ensures "privacy_risks" !in data ==> f.privacyRisks == JArr([])
    ensures "legal_risks" in data ==> f.legalRisks == data["legal_risks"]
    ensures "legal_risks" !in data ==> f.legalRisks == JArr([])
  {
    RiskFields(GetOr(data, "risk_score", DefaultScore),
               GetOr(data, "risk_level", DefaultLevel),
               GetOr(data, "summary", DefaultSummary),
               GetOr(data, "financial_risks", DefaultRisks),
               GetOr(data, "privacy_risks", DefaultRisks),
               GetOr(data, "legal_risks", DefaultRisks))
  }

  /** The object a well-formed analysis reply carries. */
  function FieldsObject(f: RiskFields): map<string, Json> {
    map["risk_score" := f.riskScore, "risk_level" := f.riskLevel, "summary" := f.summary,
        "financial_risks" := f.financialRisks, "privacy_risks" := f.privacyRisks,
        "legal_risks" := f.legalRisks]
  }

  /** Reading a complete object gives back exactly its fields. */
  lemma ReadFieldsRoundTrip(f: RiskFields)
    ensures ReadFields(FieldsObject(f)) == f
  {
  }

  /** Keys other than the six are ignored. */
  lemma ReadFieldsIgnoresOtherKeys(data: map<string, Json>, key: string, v: Json)
    requires key !in {"risk_score", "risk_level", "summary", "financial_risks", "privacy_risks", "legal_risks"}
    ensures ReadFields(data[key := v]) == ReadFields(data)
  {
  }

  /** The colour band under the progress bar. */
  datatype Band = Safe | Medium | Risky

  /** Above 80 is safe, 50 through 80 is medium, below 50 is risky. */
  function ScoreBand(score: int): (b: Band)
    ensures b == Safe <==> score > 80
    ensures b == Medium <==> 50 <= score <= 80
    ensures b == Risky <==> score < 50
  {
    if score > 80 then Safe else if score >= 50 then Medium else Risky
  }

  function BandRank(b: Band): nat {
    match b
    case Risky => 0
    case Medium => 1
    case Safe => 2
  }

  /** A higher score never lands in a riskier band. */
  lemma ScoreBandMonotone(a: int, b: int)
    requires a <= b
    ensures BandRank(ScoreBand(a)) <= BandRank(ScoreBand(b))
  {
  }

  /** The level scale the prompt asks the model to use: 0-50 High, 51-80 Medium, 81-100 Low. */
  function PromptRiskLevel(score: int): string
    requires 0 <= score <= 100
  {
    if score <= 50 then "High" else if score <= 80 then "Medium" else "Low"
  }

  /**
   * The dashboard band agrees with the prompt's scale on every score from
   * 0 to 100 except 50, which the prompt calls high risk and the dashboard
   * shows as medium.
   */
  lemma ScoreBandVersusPromptScale(score: int)
    requires 0 <= score <= 100
    ensures ScoreBand(score) == Safe <==> PromptRiskLevel(score) == "Low"
    ensures score != 50 ==> (ScoreBand(score) == Medium <==> PromptRiskLevel(score) == "Medium")
    ensures score != 50 ==> (ScoreBand(score) == Risky <==> PromptRiskLevel(score) == "High")
    ensures score == 50 ==> ScoreBand(score) == Medium && PromptRiskLevel(score) == "High"
  {
  }

  /**
   * The band of a score value: integers (and booleans, which Python
   * compares as 0 and 1) have one; for any other value the division by 100
   * and the comparison with 80 raise.
   */
  function ScoreBandOf(v: Json): (r: Option<Band>)
    ensures v.JInt? ==> r == Some(ScoreBand(v.number))
    ensures r.Some? <==> v.JInt? || v.JBool?
  {
    match v
    case JInt(n) => Some(ScoreBand(n))
    case JBool(b) => Some(ScoreBand(if b then 1 else 0))
    case _ => None
  }

  /**
   * The progress bar takes `risk_score / 100` only as a fraction from 0.0
   * to 1.0: an integer score from 0 through 100, or a boolean (0.0 or 0.01).
   */
  predicate ProgressAccepts(score: Json) {
    match score
    case JInt(n) => 0 <= n <= 100
    case JBool(_) => true
    case _ => false
  }

  /** The one-character strings iterating a Python string yields. */
  function CharItems(s: string): (r: seq<Json>)
    ensures |r| == |s|
    ensures forall i :: 0 <= i < |s| ==> r[i] == JStr([s[i]])
  {
    if |s| == 0 then [] else [JStr([s[0]])] + CharItems(s[1..])
  }

  /**
   * What `if risks: ... for risk in risks` visits: nothing for a falsy value,
   * the items of a list, the characters of a string. Iterating a number
   * raises; an object's key order is not modelled.
   */
  function RiskItems(v: Json): (r: Option<seq<Json>>)
    ensures !Truthy(v) ==> r == Some([])
    ensures v.JArr? ==> r == Some(v.items)
    ensures v.JStr? ==> r.Some? && |r.value| == |v.chars|
    ensures v.JStr? && |v.chars| > 0 ==> r == Some(CharItems(v.chars))
    ensures r.None? <==> Truthy(v) && (v.JBool? || v.JInt? || v.JObj?)
  {
    if !Truthy(v) then Some([])
    else
      match v
      case JArr(xs) => Some(xs)
      case JStr(s) => Some(CharItems(s))
      case _ => None
  }

  predicate IsDigits(s: string) {
    forall i :: 0 <= i < |s| ==> '0' <= s[i] <= '9'
  }

  /** The number a string of decimal digits denotes. */
  function DigitsValue(s: string): nat
    requires IsDigits(s)
  {
    if |s| == 0 then 0
    else DigitsValue(s[..|s| - 1]) * 10 + (s[|s| - 1] - '0') as nat
  }

  /** Python's decimal digits of a natural number: reading them back gives the number. */
  function Digits(n: nat): (r: string)
    ensures |r| > 0 && IsDigits(r)
    ensures DigitsValue(r) == n
    ensures r[0] == '0' ==> n == 0
    decreases n
  {
    var d := ['0' + (n % 10) as char];
    if n < 10 then d
    else
      var p := Digits(n / 10);
      assert (p + d)[..|p + d| - 1] == p;
      p + d
  }

  /** `str(n)` for an integer: a minus sign for negatives, then the digits of its magnitude. */
  function IntText(n: int): (r: string)
    ensures |r| > 0
    ensures n >= 0 ==> IsDigits(r) && DigitsValue(r) == n && (r[0] == '0' ==> n == 0)
    ensures n < 0 ==> |r| > 1 && r[0] == '-' && r[1] != '0' && IsDigits(r[1..]) && DigitsValue(r[1..]) == -n
  {
    if n < 0 then
      var p := Digits(-n);
      assert ("-" + p)[1..] == p;
      "-" + p
    else Digits(n)
  }

  /** `str(v)` as the f-strings use it; `repr` stands for the text of lists and objects. */
  function Show(v: Json, repr: Json -> string): (r: string)
    ensures v.JStr? ==> r == v.chars
    ensures v.JInt? && v.number >= 0 ==>
              && |r| > 0 && IsDigits(r) && DigitsValue(r) == v.number && (r[0] == '0' ==> v.number == 0)
    ensures v.JInt? && v.number < 0 ==>
              && |r| > 1 && r[0] == '-' && r[1] != '0' && IsDigits(r[1..]) && DigitsValue(r[1..]) == -v.number
    ensures v.JNull? ==> r == "None"
    ensures v.JBool? ==> r == (if v.flag then "True" else "False")
  {
    match v
    case JNull => "None"
    case JBool(b) => if b then "True" else "False"
    case JInt(n) => IntText(n)
    case JStr(s) => s
    case _ => repr(v)
  }

  function ShowAll(vs: seq<Json>, repr: Json -> string): (r: seq<string>)
    ensures |r| == |vs|
  {
    seq(|vs|, i requires 0 <= i < |vs| => Show(vs[i], repr))
  }

  const ReportTitle: string := "ClearClause Analysis Report"
  const ReportRule: string := "==========================="
  const NoneIdentified: string := "None identified"

  /** Each risk on its own line, prefixed with a dash. */
  function Bullets(items: seq<string>): (r: seq<string>)
    ensures |r| == |items|
    ensures forall i :: 0 <= i < |items| ==> r[i] == "- " + items[i]
  {
    seq(|items|, i requires 0 <= i < |items| => "- " + items[i])
  }

  /** One risk section of the report. */
  function RiskSection(items: seq<string>): string {
    if |items| == 0 then NoneIdentified else Join(Bullets(items), "\n")
  }

  /**
   * The downloadable text report, given the rendered field texts; written
   * one report line per concatenation line. It ends with a line break.
   */
  function TextReport(score: string, level: string, summary: string,
                      financial: seq<string>, privacy: seq<string>, legal: seq<string>): (r: string)
    ensures |r| > 0 && r[|r| - 1] == '\n'
  {
    ReportTitle + "\n"
    + ReportRule + "\n"
    + "\n"
    + "Risk Score: " + score + "/100" + "\n"
    + "Risk Level: " + level + "\n"
    + "Summary: " + summary + "\n"
    + "\n"
    + "Financial Risks:" + "\n"
    + RiskSection(financial) + "\n"
    + "\n"
    + "Privacy Risks:" + "\n"
    + RiskSection(privacy) + "\n"
    + "\n"
    + "Legal Risks:" + "\n"
    + RiskSection(legal) + "\n"
  }

  /** The lines of one section: the fallback line, or one bullet per risk in order. */
  function SectionLines(items: seq<string>): (r: seq<string>)
    ensures |r| > 0
  {
    if |items| == 0 then [NoneIdentified] else Bullets(items)
  }

  /** The report's fixed layout, line by line. */
  function ReportLines(score: string, level: string, summary: string,
                       financial: seq<string>, privacy: seq<string>, legal: seq<string>): seq<string>
  {
    [ReportTitle, ReportRule, "", "Risk Score: " + score + "/100", "Risk Level: " + level,
     "Summary: " + summary, "", "Financial Risks:"]
    + SectionLines(financial) + ["", "Privacy Risks:"]
    + SectionLines(privacy) + ["", "Legal Risks:"]
    + SectionLines(legal) + [""]
  }

  predicate OneLine(s: string) {
    '\n' !in s
  }

  predicate AllOneLine(items: seq<string>) {
    forall i :: 0 <= i < |items| ==> OneLine(items[i])
  }

  lemma JoinSnoc(xs: seq<string>, x: string, sep: string)
    requires |xs| > 0
    ensures Join(xs + [x], sep) == Join(xs, sep) + sep + x
  {
    JoinAppend(xs, [x], sep);
  }

  lemma SectionText(items: seq<string>)
    ensures Join(SectionLines(items), "\n") == RiskSection(items)
  {
  }

  /** Appends a line break, a blank line and a heading to a joined prefix. */
  lemma HeadingStep(xs: seq<string>, heading: string)
    requires |xs| > 0
    ensures Join(xs + ["", heading], "\n") == Join(xs, "\n") + "\n" + "\n" + heading
  {
    var nl := "\n";
    assert xs + ["", heading] == xs + [""] + [heading];
    JoinSnoc(xs, "", nl);
    JoinSnoc(xs + [""], heading, nl);
    assert Join(xs, nl) + nl + "" == Join(xs, nl) + nl;
  }

  /** The title, the rule, a blank line and the score line, joined. */
  lemma HeaderStart(scoreLine: string)
    ensures Join([ReportTitle, ReportRule, "", scoreLine], "\n")
            == ReportTitle + "\n" + ReportRule + "\n" + "\n" + scoreLine
  {
    var nl := "\n";
    var a := [ReportTitle, ReportRule];
    assert Join(a, nl) == ReportTitle + nl + ReportRule by {
      assert a[1..] == [ReportRule];
    }
    var b := a + [""];
    JoinSnoc(a, "", nl);
    assert Join(b, nl) == ReportTitle + nl + ReportRule + nl;
    JoinSnoc(b, scoreLine, nl);
    assert b + [scoreLine] == [ReportTitle, ReportRule, "", scoreLine];
  }

  /** The header: title, rule, blank line, the three field lines and the first heading. */
  lemma HeaderText(score: string, level: string, summary: string)
    ensures Join([ReportTitle, ReportRule, "", "Risk Score: " + score + "/100",
                  "Risk Level: " + level, "Summary: " + summary, "", "Financial Risks:"], "\n")
            == ReportTitle + "\n"
               + ReportRule + "\n"
               + "\n"
               + "Risk Score: " + score + "/100" + "\n"
               + "Risk Level: " + level + "\n"
               + "Summary: " + summary + "\n"
               + "\n"
               + "Financial Risks:"
  {
    var nl := "\n";
    var l1, l2, l3 := "Risk Score: " + score + "/100", "Risk Level: " + level, "Summary: " + summary;
    var c := [ReportTitle, ReportRule, "", l1];
    HeaderStart(l1);
    assert Join(c, nl) == ReportTitle + nl + ReportRule + nl + nl + "Risk Score: " + score + "/100";
    var d := c + [l2];
    JoinSnoc(c, l2, nl);
    var e := d + [l3];
    JoinSnoc(d, l3, nl);
    assert Join(e, nl) == Join(c, nl) + nl + "Risk Level: " + level + nl + "Summary: " + summary;
    HeadingStep(e, "Financial Risks:");
    assert e + ["", "Financial Risks:"]
           == [ReportTitle, ReportRule, "", l1, l2, l3, "", "Financial Risks:"];
  }

  /** The report is its lines joined by newlines. */
  lemma ReportIsJoinedLines(score: string, level: string, summary: string,
                            financial: seq<string>, privacy: seq<string>, legal: seq<string>)
    ensures Join(ReportLines(score, level, summary, financial, privacy, legal), "\n")
            == TextReport(score, level, summary, financial, privacy, legal)
  {
    var nl := "\n";
    var h := [ReportTitle, ReportRule, "", "Risk Score: " + score + "/100", "Risk Level: " + level,
              "Summary: " + summary, "", "Financial Risks:"];
    var s1, s2, s3 := SectionLines(financial), SectionLines(privacy), SectionLines(legal);
    HeaderText(score, level, summary);
    SectionText(financial);
    SectionText(privacy);
    SectionText(legal);
    var x1 := h + s1;
    JoinAppend(h, s1, nl);
    var x2 := x1 + ["", "Privacy Risks:"];
    HeadingStep(x1, "Privacy Risks:");
    var x3 := x2 + s2;
    JoinAppend(x2, s2, nl);
    var x4 := x3 + ["", "Legal Risks:"];
    HeadingStep(x3, "Legal Risks:");
    var x5 := x4 + s3;
    JoinAppend(x4, s3, nl);
    var x6 := x5 + [""];
    JoinSnoc(x5, "", nl);
    assert Join(x5, nl) + nl + "" == Join(x5, nl) + nl;
    assert x6 == ReportLines(score, level, summary, financial, privacy, legal);
  }

  lemma AllOneLineAppend(a: seq<string>, b: seq<string>)
    requires AllOneLine(a) && AllOneLine(b)
    ensures AllOneLine(a + b)
  {
    forall i | 0 <= i < |a + b| ensures OneLine((a + b)[i]) {
      if i >= |a| {
        assert (a + b)[i] == b[i - |a|];
      }
    }
  }

  lemma SectionOneLine(items: seq<string>)
    requires AllOneLine(items)
    ensures AllOneLine(SectionLines(items))
  {
    if |items| > 0 {
      forall i | 0 <= i < |items| ensures '\n' !in "- " + items[i] {
        assert OneLine(items[i]);
      }
    }
  }

  lemma HeaderOneLine(score: string, level: string, summary: string)
    requires OneLine(score) && OneLine(level) && OneLine(summary)
    ensures AllOneLine([ReportTitle, ReportRule, "", "Risk Score: " + score + "/100",
                      "Risk Level: " + level, "Summary: " + summary, "", "Financial Risks:"])
  {
    assert '\n' !in "Risk Score: " + score + "/100";
    assert '\n' !in "Risk Level: " + level;
    assert '\n' !in "Summary: " + summary;
  }

  /** A blank line followed by a heading holds no line break. */
  lemma HeadingOneLine(heading: string)
    requires heading == "Privacy Risks:" || heading == "Legal Risks:"
    ensures AllOneLine(["", heading])
  {
  }

  /**
   * The report's fixed layout: its lines are the header, then each section
   * under its heading, "None identified" for an empty list and otherwise one
   * "- " line per risk in the original order, provided no rendered value
   * itself spans several lines.
   */
  lemma ReportLayout(score: string, level: string, summary: string,
                     financial: seq<string>, privacy: seq<string>, legal: seq<string>)
    requires OneLine(score) && OneLine(level) && OneLine(summary)
    requires AllOneLine(financial) && AllOneLine(privacy) && AllOneLine(legal)
    ensures Split(TextReport(score, level, summary, financial, privacy, legal), '\n')
            == ReportLines(score, level, summary, financial, privacy, legal)
  {
    var lines := ReportLines(score, level, summary, financial, privacy, legal);
    ReportIsJoinedLines(score, level, summary, financial, privacy, legal);
    var h := [ReportTitle, ReportRule, "", "Risk Score: " + score + "/100", "Risk Level: " + level,
              "Summary: " + summary, "", "Financial Risks:"];
    var s1, s2, s3 := SectionLines(financial), SectionLines(privacy), SectionLines(legal);
    HeaderOneLine(score, level, summary);
    SectionOneLine(financial);
    SectionOneLine(privacy);
    SectionOneLine(legal);
    HeadingOneLine("Privacy Risks:");
    HeadingOneLine("Legal Risks:");
    assert AllOneLine([""]);
    AllOneLineAppend(h, s1);
    AllOneLineAppend(h + s1, ["", "Privacy Risks:"]);
    AllOneLineAppend(h + s1 + ["", "Privacy Risks:"], s2);
    AllOneLineAppend(h + s1 + ["", "Privacy Risks:"] + s2, ["", "Legal Risks:"]);
    AllOneLineAppend(h + s1 + ["", "Privacy Risks:"] + s2 + ["", "Legal Risks:"], s3);
    AllOneLineAppend(h + s1 + ["", "Privacy Risks:"] + s2 + ["", "Legal Risks:"] + s3, [""]);
    SplitJoin(lines, '\n');
  }

  /**
   * The report the dashboard offers for an analysis object, or nothing when
   * rendering would raise first (a score that cannot be divided and compared
   * with 80, a score the progress bar refuses, a risk value that cannot be
   * iterated).
   */
  function RenderReport(data: map<string, Json>, repr: Json -> string): (r: Option<string>)
    ensures r.Some? <==>
              && ScoreBandOf(ReadFields(data).riskScore).Some?
              && ProgressAccepts(ReadFields(data).riskScore)
              && RiskItems(ReadFields(data).financialRisks).Some?
              && RiskItems(ReadFields(data).privacyRisks).Some?
              && RiskItems(ReadFields(data).legalRisks).Some?
  {
    var f := ReadFields(data);
    match (ScoreBandOf(f.riskScore), RiskItems(f.financialRisks),
           RiskItems(f.privacyRisks), RiskItems(f.legalRisks))
    case (Some(_), Some(fin), Some(priv), Some(legal)) =>
      if !ProgressAccepts(f.riskScore) then None
      else Some(TextReport(Show(f.riskScore, repr), Show(f.riskLevel, repr), Show(f.summary, repr),
                      ShowAll(fin, repr), ShowAll(priv, repr), ShowAll(legal, repr)))
    case _ => None
  }

  /** When rendering gets through, the report shows the fields as `str()` renders them. */
  lemma RenderedFields(data: map<string, Json>, repr: Json -> string)
    requires ScoreBandOf(ReadFields(data).riskScore).Some? && ProgressAccepts(ReadFields(data).riskScore)
    requires RiskItems(ReadFields(data).financialRisks).Some?
    requires RiskItems(ReadFields(data).privacyRisks).Some?
    requires RiskItems(ReadFields(data).legalRisks).Some?
    ensures var f := ReadFields(data);
            RenderReport(data, repr)
            == Some(TextReport(Show(f.riskScore, repr), Show(f.riskLevel, repr), Show(f.summary, repr),
                               ShowAll(RiskItems(f.financialRisks).value, repr),
                               ShowAll(RiskItems(f.privacyRisks).value, repr),
                               ShowAll(RiskItems(f.legalRisks).value, repr)))
  {
  }

  /** An analysis object without any of the six fields renders with every default in place. */
  lemma MissingFieldsReport(data: map<string, Json>, repr: Json -> string)
    requires "risk_score" !in data && "risk_level" !in data && "summary" !in data
    requires "financial_risks" !in data && "privacy_risks" !in data && "legal_risks" !in data
    ensures RenderReport(data, repr)
            == Some(TextReport("0", "Unknown", "No summary available", [], [], []))
  {
    assert ReadFields(data) == RiskFields(DefaultScore, DefaultLevel, DefaultSummary,
                                          DefaultRisks, DefaultRisks, DefaultRisks);
    RenderedFields(data, repr);
    assert Show(DefaultScore, repr) == "0" by {
      assert Digits(0) == "0";
    }
    assert ShowAll([], repr) == [];
  }

  /** A list of risk descriptions as the JSON array the model returns. */
  function Strs(xs: seq<string>): (r: seq<Json>)
    ensures |r| == |xs|
    ensures forall i :: 0 <= i < |xs| ==> r[i] == JStr(xs[i])
  {
    seq(|xs|, i requires 0 <= i < |xs| => JStr(xs[i]))
  }

  /** Rendering a string list shows each string as itself. */
  lemma ShowStrs(xs: seq<string>, repr: Json -> string)
    ensures ShowAll(Strs(xs), repr) == xs
  {
  }

  /** The analysis object carrying a score and lists of risk descriptions. */
  function AnalysisObject(n: int, level: string, summary: string,
                          financial: seq<string>, privacy: seq<string>, legal: seq<string>): map<string, Json>
  {
    FieldsObject(RiskFields(JInt(n), JStr(level), JStr(summary),
                            JArr(Strs(financial)), JArr(Strs(privacy)), JArr(Strs(legal))))
  }

  /**
   * A score from 0 to 100 with lists of risk descriptions always gets a
   * report: the score's digits and the texts as given.
   */
  lemma RenderedReport(n: int, level: string, summary: string,
                       financial: seq<string>, privacy: seq<string>, legal: seq<string>,
                       repr: Json -> string)
    requires 0 <= n <= 100
    ensures RenderReport(AnalysisObject(n, level, summary, financial, privacy, legal), repr)
            == Some(TextReport(Digits(n), level, summary, financial, privacy, legal))
  {
    var f := RiskFields(JInt(n), JStr(level), JStr(summary),
                        JArr(Strs(financial)), JArr(Strs(privacy)), JArr(Strs(legal)));
    var data := AnalysisObject(n, level, summary, financial, privacy, legal);
    ReadFieldsRoundTrip(f);
    assert ReadFields(data) == f;
    assert RiskItems(f.financialRisks) == Some(Strs(financial));
    assert RiskItems(f.privacyRisks) == Some(Strs(privacy));
    assert RiskItems(f.legalRisks) == Some(Strs(legal));
    RenderedFields(data, repr);
    ShowStrs(financial, repr);
    ShowStrs(privacy, repr);
    ShowStrs(legal, repr);
    assert Show(JInt(n), repr) == Digits(n);
  }

  lemma DigitsOneLine(n: nat)
    ensures OneLine(Digits(n))
  {
    var d := Digits(n);
    forall i | 0 <= i < |d| ensures d[i] != '\n' {
      assert '0' <= d[i] <= '9';
    }
  }

  /**
   * With one-line texts and one-line risks, the rendered report splits into
   * exactly the layout lines.
   */
  lemma RenderedReportLayout(n: int, level: string, summary: string,
                             financial: seq<string>, privacy: seq<string>, legal: seq<string>,
                             repr: Json -> string)
    requires 0 <= n <= 100
    requires OneLine(level) && OneLine(summary)
    requires AllOneLine(financial) && AllOneLine(privacy) && AllOneLine(legal)
    ensures RenderReport(AnalysisObject(n, level, summary, financial, privacy, legal), repr).Some?
    ensures Split(RenderReport(AnalysisObject(n, level, summary, financial, privacy, legal), repr).value, '\n')
            == ReportLines(Digits(n), level, summary, financial, privacy, legal)
  {
    RenderedReport(n, level, summary, financial, privacy, legal, repr);
    DigitsOneLine(n);
    ReportLayout(Digits(n), level, summary, financial, privacy, legal);
  }

  /** With no risks listed, every section reads "None identified". */
  lemma NoRisksLayout(score: string, level: string, summary: string)
    requires OneLine(score) && OneLine(level) && OneLine(summary)
    ensures Split(TextReport(score, level, summary, [], [], []), '\n')
            == [ReportTitle, ReportRule, "", "Risk Score: " + score + "/100", "Risk Level: " + level,
                "Summary: " + summary, "", "Financial Risks:", NoneIdentified,
                "", "Privacy Risks:", NoneIdentified, "", "Legal Risks:", NoneIdentified, ""]
  {
    assert ReportLines(score, level, summary, [], [], [])
           == [ReportTitle, ReportRule, "", "Risk Score: " + score + "/100", "Risk Level: " + level,
               "Summary: " + summary, "", "Financial Risks:", NoneIdentified,
               "", "Privacy Risks:", NoneIdentified, "", "Legal Risks:", NoneIdentified, ""] by {
      assert SectionLines([]) == [NoneIdentified];
    }
    ReportLayout(score, level, summary, [], [], []);
  }
}

=== FILE: privacy_guard.dfy ===
/**
 * The PII guard: `redact_pii`, `get_redaction_summary` and
 * `get_entity_details`. The named-entity recognizer is an oracle whose
 * answer for the text is passed in as a sequence of entities; the phone
 * pattern is an oracle whose matches are passed in as spans.
 */
module PrivacyGuard {
  import opened TextOps
  import opened Spans
  import opened Splicing

  /** The recognizer labels that are redacted. */
  const RedactableEntities: set<string> := {"PERSON", "ORG", "DATE", "GPE"}

  /** The breakdown key and detail label used for phone matches. */
  const PhoneLabel: string := "PHONE"

  /** One recognized entity: its label (`kind`) and character offsets. */
  datatype Entity = Entity(kind: string, start: nat, end: nat)

  predicate Redactable(e: Entity) {
    e.kind in RedactableEntities
  }

  function SpanOf(e: Entity): Span {
    Span(e.start, e.end)
  }

  /** The spans of the redactable entities, in recognizer order. */
  function EntitySpans(ents: seq<Entity>): (r: seq<Span>)
    ensures |r| <= |ents|
    ensures forall s :: s in r <==> exists e :: e in ents && Redactable(e) && s == SpanOf(e)
  {
    if |ents| == 0 then []
    else
      assert forall e :: e in ents <==> e == ents[0] || e in ents[1..];
      (if Redactable(ents[0]) then [SpanOf(ents[0])] else []) + EntitySpans(ents[1..])
  }

  /** The `redactions` list before de-duplication: entity spans, then phone matches. */
  function CollectSpans(ents: seq<Entity>, phones: seq<Span>): seq<Span> {
    EntitySpans(ents) + phones
  }

  /**
   * The order in which the loop splices: every redactable entity span and
   * every phone match, once each, largest `(start, end)` first.
   */
  function RedactionPlan(ents: seq<Entity>, phones: seq<Span>): (r: seq<Span>)
    ensures StrictlyDescending(r)
    ensures forall s :: s in r <==>
              s in phones || exists e :: e in ents && Redactable(e) && s == SpanOf(e)
  {
    Normalize(CollectSpans(ents, phones))
  }

  /** `redact_pii(text)`, given the recognizer's entities and the phone matches. */
  function RedactPii(text: string, ents: seq<Entity>, phones: seq<Span>): (r: string)
    ensures |text| == 0 ==> r == text
    ensures RedactionPlan(ents, phones) == [] ==> r == text
  {
    if |text| == 0 then text else SpliceAll(text, RedactionPlan(ents, phones))
  }

  /** Detected spans that lie inside a text of length `n` and do not overlap. */
  predicate NonOverlapping(n: nat, spans: seq<Span>) {
    && (forall i :: 0 <= i < |spans| ==> spans[i].start <= spans[i].end <= n)
    && (forall i, j :: 0 <= i < |spans| && 0 <= j < |spans| && spans[i] != spans[j] ==>
          spans[i].end <= spans[j].start || spans[j].end <= spans[i].start)
  }

  /** Sorting non-overlapping spans in descending order lists them right to left. */
  lemma NormalizeRightToLeft(n: nat, xs: seq<Span>)
    requires NonOverlapping(n, xs)
    ensures RightToLeft(n, Normalize(xs))
  {
    var r := Normalize(xs);
    forall i | 0 <= i < |r|
      ensures r[i].start <= r[i].end <= n
    {
      assert r[i] in xs;
    }
    forall i, j | 0 <= i < j < |r|
      ensures r[j].end <= r[i].start
    {
      assert r[i] in xs && r[j] in xs;
      assert Below(r[j], r[i]);
    }
  }

  /**
   * Redaction only looks at which spans were found: listing entities in
   * another order, or finding a span twice, gives the same output.
   */
  lemma RedactBySpanSet(text: string, ents1: seq<Entity>, phones1: seq<Span>,
                        ents2: seq<Entity>, phones2: seq<Span>)
    requires forall s :: s in CollectSpans(ents1, phones1) <==> s in CollectSpans(ents2, phones2)
    ensures RedactPii(text, ents1, phones1) == RedactPii(text, ents2, phones2)
  {
    NormalizeBySet(CollectSpans(ents1, phones1), CollectSpans(ents2, phones2));
  }

  /**
   * Whatever the spans, the text before the leftmost span start comes
   * through unchanged.
   */
  lemma RedactKeepsPrefix(text: string, ents: seq<Entity>, phones: seq<Span>, m: nat)
    requires m <= |text|
    requires forall s :: s in CollectSpans(ents, phones) ==> m <= s.start
    ensures m <= |RedactPii(text, ents, phones)|
    ensures RedactPii(text, ents, phones)[..m] == text[..m]
  {
    var plan := RedactionPlan(ents, phones);
    assert forall i :: 0 <= i < |plan| ==> plan[i] in plan;
    SpliceAllKeepsPrefix(text, plan, m);
  }

  /**
   * For non-overlapping spans inside the text, the output is the text with
   * each distinct span replaced by exactly one marker and everything else
   * copied in order (the same rewrite with the original characters put back
   * gives the text itself); when the text holds no `[`, the output holds one
   * marker per distinct span.
   */
  lemma RedactNonOverlapping(text: string, ents: seq<Entity>, phones: seq<Span>)
    requires |text| > 0
    requires NonOverlapping(|text|, CollectSpans(ents, phones))
    ensures RightToLeft(|text|, RedactionPlan(ents, phones))
    ensures RedactPii(text, ents, phones)
            == Replace(text, RedactionPlan(ents, phones), Markers(|RedactionPlan(ents, phones)|))
    ensures text == Replace(text, RedactionPlan(ents, phones),
                            Covered(text, RedactionPlan(ents, phones)))
    ensures '[' !in text ==>
              CountMarker(RedactPii(text, ents, phones)) == |RedactionPlan(ents, phones)|
  {
    var plan := RedactionPlan(ents, phones);
    NormalizeRightToLeft(|text|, CollectSpans(ents, phones));
    SpliceAllIsReplace(text, plan);
    ReplaceWithOriginals(text, plan);
    if '[' !in text {
      ReplaceMarkerCount(text, plan);
    }
  }

  /** Occurrences of the label `kind` among the entities. */
  function LabelCount(ents: seq<Entity>, kind: string): nat {
    if |ents| == 0 then 0
    else LabelCount(ents[..|ents| - 1], kind) + (if ents[|ents| - 1].kind == kind then 1 else 0)
  }

  /**
   * The loop `entity_counts[label] = entity_counts.get(label, 0) + 1` over
   * the redactable entities: a key for each redactable label that occurs,
   * holding its number of occurrences.
   */
  function CountLabels(ents: seq<Entity>): (m: map<string, nat>)
    ensures forall l :: l in m <==> l in RedactableEntities && LabelCount(ents, l) > 0
    ensures forall l :: l in m ==> m[l] == LabelCount(ents, l)
  {
    if |ents| == 0 then map[]
    else
      var m0 := CountLabels(ents[..|ents| - 1]);
      var e := ents[|ents| - 1];
      if Redactable(e) then m0[e.kind := (if e.kind in m0 then m0[e.kind] else 0) + 1]
      else m0
  }

  /** `get_redaction_summary`'s dictionary. */
  datatype RedactionSummary = RedactionSummary(totalRedactions: nat, entityBreakdown: map<string, nat>)

  /**
   * `get_redaction_summary(original, redacted)`, given the recognizer's
   * entities and the phone matches for `original`.
   */
  function GetRedactionSummary(original: string, redacted: string,
                               ents: seq<Entity>, phones: seq<Span>): (r: RedactionSummary)
    ensures |original| == 0 ==> r.totalRedactions == 0 && r.entityBreakdown == map[]
    ensures |original| > 0 ==> r.totalRedactions == CountMarker(redacted)
    ensures |original| > 0 ==> (PhoneLabel in r.entityBreakdown <==> |phones| > 0)
    ensures PhoneLabel in r.entityBreakdown ==> r.entityBreakdown[PhoneLabel] == |phones|
    ensures forall l :: l in r.entityBreakdown && l != PhoneLabel ==>
              l in RedactableEntities && r.entityBreakdown[l] == LabelCount(ents, l)
    ensures |original| > 0 ==> forall l :: l in RedactableEntities ==>
              (l in r.entityBreakdown <==> LabelCount(ents, l) > 0)
  {
    if |original| == 0 then RedactionSummary(0, map[])
    else
      var counts := CountLabels(ents);
      var breakdown := if |phones| > 0 then counts[PhoneLabel := |phones|] else counts;
      RedactionSummary(CountMarker(redacted), breakdown)
  }

  /**
   * On a text without `[` whose detected spans do not overlap, the total
   * counts the distinct spans that were redacted.
   */
  lemma SummaryTotalCountsDistinctSpans(text: string, ents: seq<Entity>, phones: seq<Span>)
    requires |text| > 0 && '[' !in text
    requires NonOverlapping(|text|, CollectSpans(ents, phones))
    ensures GetRedactionSummary(text, RedactPii(text, ents, phones), ents, phones).totalRedactions
            == |RedactionPlan(ents, phones)|
  {
    RedactNonOverlapping(text, ents, phones);
  }

  /**
   * The total and the breakdown are computed independently and need not
   * agree: a date the phone pattern also matches is redacted once but
   * counted under both labels.
   */
  lemma SummaryTotalMayDisagreeWithBreakdown()
    ensures var text := "5551234567";
            var ents := [Entity("DATE", 0, 10)];
            var phones := [Span(0, 10)];
            var s := GetRedactionSummary(text, RedactPii(text, ents, phones), ents, phones);
            s.totalRedactions == 1 && s.entityBreakdown == map["DATE" := 1, PhoneLabel := 1]
  {
    var text := "5551234567";
    var ents := [Entity("DATE", 0, 10)];
    var phones := [Span(0, 10)];
    assert CollectSpans(ents, phones) == [Span(0, 10), Span(0, 10)];
    NormalizeBySet(CollectSpans(ents, phones), [Span(0, 10)]);
    assert Normalize([Span(0, 10)]) == [Span(0, 10)];
    assert RedactPii(text, ents, phones) == Marker;
    assert Marker[..|Marker|] == Marker && Marker[|Marker|..] == [];
    assert LabelCount(ents, "DATE") == 1;
  }

  /** One entry of `get_entity_details`' list. */
  datatype EntityDetail = EntityDetail(text: string, kind: string, start: nat, end: nat)

  /** `get_entity_details`' dictionary. */
  datatype EntityDetails = EntityDetails(entities: seq<EntityDetail>, totalEntities: nat)

  /**
   * The redactable entities, in recognizer order: the ones whose spans
   * `EntitySpans` lists, position for position.
   */
  function RedactableEnts(ents: seq<Entity>): (r: seq<Entity>)
    ensures |ents| == 0 ==> r == []
    ensures |r| == |EntitySpans(ents)|
    ensures forall i :: 0 <= i < |r| ==> Redactable(r[i]) && SpanOf(r[i]) == EntitySpans(ents)[i]
  {
    if |ents| == 0 then []
    else (if Redactable(ents[0]) then [ents[0]] else []) + RedactableEnts(ents[1..])
  }

  /** The redactable entities are drawn from the recognizer's list, and none is dropped. */
  lemma {:induction false} RedactableEntsMembers(ents: seq<Entity>)
    ensures forall i :: 0 <= i < |RedactableEnts(ents)| ==> RedactableEnts(ents)[i] in ents
    ensures forall e :: e in ents && Redactable(e) ==> e in RedactableEnts(ents)
  {
    if |ents| > 0 {
      var head := if Redactable(ents[0]) then [ents[0]] else [];
      var r, rest := RedactableEnts(ents), RedactableEnts(ents[1..]);
      assert r == head + rest;
      RedactableEntsMembers(ents[1..]);
      forall i | 0 <= i < |r| ensures r[i] in ents {
        if i < |head| {
          assert r[i] == ents[0];
        } else {
          assert r[i] == rest[i - |head|];
          assert rest[i - |head|] in ents[1..];
        }
      }
      forall e | e in ents && Redactable(e) ensures e in r {
        if e == ents[0] {
          assert r[0] == e;
        } else {
          assert e in ents[1..];
          assert e in rest;
        }
      }
    }
  }

  /**
   * Appending an entity to the recognizer's list appends it to the filtered
   * list exactly when it is redactable: with the empty case, this fixes the
   * order and the multiplicity of the filter.
   */
  lemma {:induction false} RedactableEntsSnoc(ents: seq<Entity>, e: Entity)
    ensures RedactableEnts(ents + [e]) == RedactableEnts(ents) + (if Redactable(e) then [e] else [])
    decreases |ents|
  {
    var last := if Redactable(e) then [e] else [];
    if |ents| == 0 {
      assert ents + [e] == [e];
      assert [e][1..] == [];
    } else {
      var x, t := ents + [e], ents[1..];
      var first := if Redactable(ents[0]) then [ents[0]] else [];
      assert x[0] == ents[0];
      assert x[1..] == t + [e];
      RedactableEntsSnoc(t, e);
      calc {
        RedactableEnts(x);
        first + RedactableEnts(t + [e]);
        first + (RedactableEnts(t) + last);
        (first + RedactableEnts(t)) + last;
      }
    }
  }

  /** The same append step for the spans the redactor collects from the entities. */
  lemma {:induction false} EntitySpansSnoc(ents: seq<Entity>, e: Entity)
    ensures EntitySpans(ents + [e]) == EntitySpans(ents) + (if Redactable(e) then [SpanOf(e)] else [])
    decreases |ents|
  {
    var last := if Redactable(e) then [SpanOf(e)] else [];
    if |ents| == 0 {
      assert ents + [e] == [e];
      assert [e][1..] == [];
    } else {
      var x, t := ents + [e], ents[1..];
      var first := if Redactable(ents[0]) then [SpanOf(ents[0])] else [];
      assert x[0] == ents[0];
      assert x[1..] == t + [e];
      EntitySpansSnoc(t, e);
      calc {
        EntitySpans(x);
        first + EntitySpans(t + [e]);
        first + (EntitySpans(t) + last);
        (first + EntitySpans(t)) + last;
      }
    }
  }

  /** The filtered list has one entry per entity labelled PERSON, ORG, DATE or GPE. */
  lemma {:induction false} RedactableEntsCount(ents: seq<Entity>)
    ensures |RedactableEnts(ents)|
            == LabelCount(ents, "PERSON") + LabelCount(ents, "ORG")
               + LabelCount(ents, "DATE") + LabelCount(ents, "GPE")
    decreases |ents|
  {
    if |ents| > 0 {
      var init, e := ents[..|ents| - 1], ents[|ents| - 1];
      assert ents == init + [e];
      RedactableEntsSnoc(init, e);
      RedactableEntsCount(init);
    }
  }

  /** The detail entries of the redactable entities, in recognizer order. */
  function EntityDetailList(text: string, ents: seq<Entity>): (r: seq<EntityDetail>)
    ensures |r| == |RedactableEnts(ents)|
    ensures forall i :: 0 <= i < |r| ==>
              && r[i].kind == RedactableEnts(ents)[i].kind
              && r[i].kind in RedactableEntities
              && r[i].start == RedactableEnts(ents)[i].start
              && r[i].end == RedactableEnts(ents)[i].end
              && r[i].text == Slice(text, r[i].start, r[i].end)
  {
    var sel := RedactableEnts(ents);
    seq(|sel|, i requires 0 <= i < |sel| =>
      EntityDetail(Slice(text, sel[i].start, sel[i].end), sel[i].kind, sel[i].start, sel[i].end))
  }

  /** The detail entries of the phone matches, in match order. */
  function PhoneDetailList(text: string, phones: seq<Span>): (r: seq<EntityDetail>)
    ensures |r| == |phones|
    ensures forall i :: 0 <= i < |r| ==>
              && r[i].kind == PhoneLabel
              && Span(r[i].start, r[i].end) == phones[i]
              && r[i].text == Slice(text, phones[i].start, phones[i].end)
  {
    seq(|phones|, i requires 0 <= i < |phones| =>
      EntityDetail(Slice(text, phones[i].start, phones[i].end), PhoneLabel, phones[i].start, phones[i].end))
  }

  /** `get_entity_details(text)`, given the recognizer's entities and the phone matches. */
  function GetEntityDetails(text: string, ents: seq<Entity>, phones: seq<Span>): (r: EntityDetails)
    ensures r.totalEntities == |r.entities|
    ensures |text| == 0 ==> r.entities == []
    ensures |text| > 0 ==> |r.entities| == |EntitySpans(ents)| + |phones|
    ensures |text| > 0 ==> forall i :: 0 <= i < |r.entities| ==>
              (i < |EntitySpans(ents)| <==> r.entities[i].kind != PhoneLabel)
    ensures |text| > 0 ==> forall i :: 0 <= i < |RedactableEnts(ents)| ==>
              r.entities[i].kind == RedactableEnts(ents)[i].kind
    ensures forall d :: d in r.entities ==> d.text == Slice(text, d.start, d.end)
  {
    if |text| == 0 then EntityDetails([], 0)
    else
      var es, ps := EntityDetailList(text, ents), PhoneDetailList(text, phones);
      var all := es + ps;
      assert forall i :: 0 <= i < |es| ==> all[i] == es[i];
      assert forall i :: |es| <= i < |all| ==> all[i] == ps[i - |es|];
      assert forall d :: d in all ==> d.text == Slice(text, d.start, d.end);
      EntityDetails(all, |all|)
  }

  /** The `(start, end)` of each detail entry. */
  function DetailSpans(ds: seq<EntityDetail>): (r: seq<Span>)
    ensures |r| == |ds|
    ensures forall i :: 0 <= i < |ds| ==> r[i] == Span(ds[i].start, ds[i].end)
  {
    seq(|ds|, i requires 0 <= i < |ds| => Span(ds[i].start, ds[i].end))
  }

  /**
   * For a non-empty text, `total_entities` counts the recognizer's PERSON,
   * ORG, DATE and GPE entities plus the phone matches.
   */
  lemma EntityDetailsTotal(text: string, ents: seq<Entity>, phones: seq<Span>)
    requires |text| > 0
    ensures GetEntityDetails(text, ents, phones).totalEntities
            == LabelCount(ents, "PERSON") + LabelCount(ents, "ORG")
               + LabelCount(ents, "DATE") + LabelCount(ents, "GPE") + |phones|
  {
    RedactableEntsCount(ents);
  }

  /**
   * `get_entity_details` walks the same spans as `redact_pii` collects,
   * in the same order: redactable entities first, then phone matches.
   */
  lemma DetailSpansAreCollected(text: string, ents: seq<Entity>, phones: seq<Span>)
    requires |text| > 0
    ensures DetailSpans(GetEntityDetails(text, ents, phones).entities) == CollectSpans(ents, phones)
  {
    var es := EntityDetailList(text, ents);
    var ps := PhoneDetailList(text, phones);
    var all := es + ps;
    assert GetEntityDetails(text, ents, phones).entities == all;
    var a, c := DetailSpans(all), CollectSpans(ents, phones);
    forall i | 0 <= i < |a| ensures a[i] == c[i] {
      if i < |es| {
        assert all[i] == es[i];
      } else {
        assert all[i] == ps[i - |es|];
      }
    }
  }

  /**
   * The entities reported by `get_entity_details` cover exactly the spans
   * `redact_pii` redacts.
   */
  lemma DetailsMatchRedactions(text: string, ents: seq<Entity>, phones: seq<Span>)
    requires |text| > 0
    ensures forall s :: s in RedactionPlan(ents, phones) <==>
              s in DetailSpans(GetEntityDetails(text, ents, phones).entities)
  {
    DetailSpansAreCollected(text, ents, phones);
  }
}

=== FILE: spans.dfy ===
/**
 * Character spans `(start, end)` and the redactor's
 * `sorted(set(redactions), reverse=True)`: duplicates are dropped and the
 * spans are put in strictly descending lexicographic order.
 */
module Spans {

  /** A half-open character range `[start, end)`, as Python's `(start, end)` tuple. */
  datatype Span = Span(start: nat, end: nat)

  /** Python's tuple comparison `a < b`: by start, then by end. */
  predicate Below(a: Span, b: Span) {
    a.start < b.start || (a.start == b.start && a.end < b.end)
  }

  /** Every element is strictly greater than each element after it. */
  predicate StrictlyDescending(xs: seq<Span>) {
    forall i, j :: 0 <= i < j < |xs| ==> Below(xs[j], xs[i])
  }

  /** Adds one span to a strictly descending sequence, keeping it so. */
  function Insert(xs: seq<Span>, x: Span): (r: seq<Span>)
    requires StrictlyDescending(xs)
    ensures StrictlyDescending(r)
    ensures forall y :: y in r <==> y in xs || y == x
  {
    if |xs| == 0 then [x]
    else if x == xs[0] then xs
    else if Below(xs[0], x) then [x] + xs
    else
      var rest := Insert(xs[1..], x);
      assert forall y :: y in xs <==> y == xs[0] || y in xs[1..];
      assert forall k :: 0 <= k < |rest| ==> Below(rest[k], xs[0]) by {
        forall k | 0 <= k < |rest| ensures Below(rest[k], xs[0]) {
          assert rest[k] in rest;
          if rest[k] != x {
            var m :| 0 <= m < |xs[1..]| && xs[1..][m] == rest[k];
            assert xs[m + 1] == rest[k];
          }
        }
      }
      [xs[0]] + rest
  }

  /**
   * `sorted(set(xs), reverse=True)`: the distinct spans of `xs`, largest
   * first.
   */
  function Normalize(xs: seq<Span>): (r: seq<Span>)
    ensures StrictlyDescending(r)
    ensures forall y :: y in r <==> y in xs
  {
    if |xs| == 0 then []
    else
      assert forall y :: y in xs <==> y == xs[0] || y in xs[1..];
      Insert(Normalize(xs[1..]), xs[0])
  }

  /** In a strictly descending sequence the head is above every other element. */
  lemma HeadIsLargest(xs: seq<Span>, y: Span)
    requires StrictlyDescending(xs) && |xs| > 0
    requires y in xs && y != xs[0]
    ensures Below(y, xs[0])
  {
    var k :| 0 <= k < |xs| && xs[k] == y;
  }

  /** The head of a strictly descending sequence does not recur in its tail. */
  lemma HeadNotInTail(xs: seq<Span>)
    requires StrictlyDescending(xs) && |xs| > 0
    ensures xs[0] !in xs[1..]
    ensures forall y :: y in xs <==> y == xs[0] || y in xs[1..]
  {
    assert forall k :: 0 <= k < |xs[1..]| ==> Below(xs[1..][k], xs[0]);
    assert xs == [xs[0]] + xs[1..];
  }

  /**
   * A strictly descending sequence is determined by its elements: two such
   * sequences over the same spans are equal.
   */
  lemma {:induction false} DescendingUnique(a: seq<Span>, b: seq<Span>)
    requires StrictlyDescending(a) && StrictlyDescending(b)
    requires forall y :: y in a <==> y in b
    ensures a == b
  {
    if |a| > 0 {
      assert a[0] in b;
    }
    if |b| > 0 {
      assert b[0] in a;
    }
    if |a| > 0 && |b| > 0 {
      if a[0] != b[0] {
        HeadIsLargest(b, a[0]);
        HeadIsLargest(a, b[0]);
      }
      assert a[0] == b[0];
      HeadNotInTail(a);
      HeadNotInTail(b);
      DescendingUnique(a[1..], b[1..]);
      assert a == [a[0]] + a[1..];
      assert b == [b[0]] + b[1..];
    }
  }

  /**
   * Normalizing depends only on which spans occur: reordering the input or
   * repeating a span does not change the result.
   */
  lemma NormalizeBySet(xs: seq<Span>, ys: seq<Span>)
    requires forall y :: y in xs <==> y in ys
    ensures Normalize(xs) == Normalize(ys)
  {
    DescendingUnique(Normalize(xs), Normalize(ys));
  }
}

=== FILE: splice.dfy ===
/**
 * The right-to-left splice loop of the redactor,
 * `redacted = redacted[:start] + "[REDACTED]" + redacted[end:]`, as a fold
 * over the span sequence, and the `[REDACTED]` counter of the summary.
 */
module Splicing {
  import opened TextOps
  import opened Spans

  /** The literal every redacted span is replaced with. */
  const Marker: string := "[REDACTED]"

  /** One turn of the loop: Python's clamping slices around the marker. */
  function Splice(t: string, s: Span): (r: string)
    ensures |r| == |Prefix(t, s.start)| + |Marker| + |Suffix(t, s.end)|
    ensures Prefix(t, s.start) <= r
  {
    Prefix(t, s.start) + Marker + Suffix(t, s.end)
  }

  /** The whole loop: splice each span in sequence order. */
  function SpliceAll(t: string, spans: seq<Span>): string
    decreases |spans|
  {
    if |spans| == 0 then t else SpliceAll(Splice(t, spans[0]), spans[1..])
  }

  /**
   * Spans listed right to left without overlap, all inside a text of length
   * `n`: every later span ends at or before the start of every earlier one.
   */
  predicate RightToLeft(n: nat, spans: seq<Span>) {
    && (forall i :: 0 <= i < |spans| ==> spans[i].start <= spans[i].end <= n)
    && (forall i, j :: 0 <= i < j < |spans| ==> spans[j].end <= spans[i].start)
  }

  /**
   * Reference rewrite of a text: the rightmost span's characters are
   * replaced by `fills[0]`, and the text before it is rewritten in the same
   * way with the remaining spans. Everything outside the spans is copied.
   */
  function Replace(t: string, spans: seq<Span>, fills: seq<string>): string
    requires RightToLeft(|t|, spans) && |fills| == |spans|
    decreases |spans|
  {
    if |spans| == 0 then t
    else Replace(t[..spans[0].start], spans[1..], fills[1..]) + fills[0] + t[spans[0].end..]
  }

  /** One marker per span. */
  function Markers(n: nat): (r: seq<string>)
    ensures |r| == n && forall i :: 0 <= i < n ==> r[i] == Marker
  {
    seq(n, _ => Marker)
  }

  /** The original characters under each span. */
  function Covered(t: string, spans: seq<Span>): (r: seq<string>)
    requires RightToLeft(|t|, spans)
    ensures |r| == |spans|
    ensures forall i :: 0 <= i < |spans| ==> r[i] == t[spans[i].start..spans[i].end]
  {
    seq(|spans|, i requires 0 <= i < |spans| => t[spans[i].start..spans[i].end])
  }

  /**
   * Splicing at positions at or after `m` leaves the first `m` characters
   * alone, whatever the spans are.
   */
  lemma {:induction false} SpliceAllKeepsPrefix(t: string, spans: seq<Span>, m: nat)
    requires m <= |t|
    requires forall i :: 0 <= i < |spans| ==> m <= spans[i].start
    ensures m <= |SpliceAll(t, spans)|
    ensures SpliceAll(t, spans)[..m] == t[..m]
    decreases |spans|
  {
    if |spans| > 0 {
      var t' := Splice(t, spans[0]);
      assert t'[..m] == t[..m];
      SpliceAllKeepsPrefix(t', spans[1..], m);
    }
  }

  /**
   * No index shift: when the loop reaches span `k`, the splices already done
   * (all to its right) have left its characters exactly where they were in
   * the original text.
   */
  lemma {:induction false} EachSpliceSeesOriginal(t: string, spans: seq<Span>, k: nat)
    requires RightToLeft(|t|, spans) && k < |spans|
    ensures spans[k].end <= |SpliceAll(t, spans[..k])|
    ensures SpliceAll(t, spans[..k])[spans[k].start..spans[k].end]
            == t[spans[k].start..spans[k].end]
  {
    var done := SpliceAll(t, spans[..k]);
    SpliceAllKeepsPrefix(t, spans[..k], spans[k].end);
    assert done[spans[k].start..spans[k].end] == done[..spans[k].end][spans[k].start..];
  }

  /** Splices confined to a prefix `p` carry any suffix `q` along unchanged. */
  lemma {:induction false} SpliceAllFrame(p: string, q: string, spans: seq<Span>)
    requires RightToLeft(|p|, spans)
    ensures SpliceAll(p + q, spans) == SpliceAll(p, spans) + q
    decreases |spans|
  {
    if |spans| > 0 {
      var s := spans[0];
      assert (p + q)[..s.start] == p[..s.start];
      assert (p + q)[s.end..] == p[s.end..] + q;
      assert Splice(p + q, s) == Splice(p, s) + q;
      SpliceAllFrame(Splice(p, s), q, spans[1..]);
    }
  }

  /** The first splice, seen from the end result: the later ones all work inside its prefix. */
  lemma SpliceAllStep(t: string, spans: seq<Span>)
    requires RightToLeft(|t|, spans) && |spans| > 0
    ensures RightToLeft(spans[0].start, spans[1..])
    ensures SpliceAll(t, spans)
            == SpliceAll(t[..spans[0].start], spans[1..]) + (Marker + t[spans[0].end..])
  {
    var s := spans[0];
    var p, q := t[..s.start], Marker + t[s.end..];
    assert Splice(t, s) == p + q;
    RightToLeftTail(|t|, spans);
    SpliceAllFrame(p, q, spans[1..]);
  }

  /**
   * For non-overlapping spans listed right to left, the splice loop is the
   * reference rewrite with a marker in place of every span.
   */
  lemma {:induction false} SpliceAllIsReplace(t: string, spans: seq<Span>)
    requires RightToLeft(|t|, spans)
    ensures SpliceAll(t, spans) == Replace(t, spans, Markers(|spans|))
    decreases |spans|
  {
    if |spans| > 0 {
      var p := t[..spans[0].start];
      SpliceAllStep(t, spans);
      SpliceAllIsReplace(p, spans[1..]);
      assert Markers(|spans|)[1..] == Markers(|spans| - 1);
      var r := Replace(p, spans[1..], Markers(|spans| - 1));
      assert r + (Marker + t[spans[0].end..]) == r + Marker + t[spans[0].end..];
    }
  }

  /** The spans after the first all lie before its start. */
  lemma RightToLeftTail(n: nat, spans: seq<Span>)
    requires RightToLeft(n, spans) && |spans| > 0
    ensures RightToLeft(spans[0].start, spans[1..])
  {
    forall i | 0 <= i < |spans| - 1
      ensures spans[1..][i].start <= spans[1..][i].end <= spans[0].start
    {
      assert spans[i + 1].end <= spans[0].start;
    }
  }

  /** The characters under the later spans are the same in the prefix before the first. */
  lemma CoveredTail(t: string, spans: seq<Span>)
    requires RightToLeft(|t|, spans) && |spans| > 0
    ensures RightToLeft(|t[..spans[0].start]|, spans[1..])
    ensures Covered(t, spans)[1..] == Covered(t[..spans[0].start], spans[1..])
  {
    var m := spans[0].start;
    RightToLeftTail(|t|, spans);
    var p := t[..m];
    forall i | 0 <= i < |spans| - 1
      ensures Covered(t, spans)[1..][i] == Covered(p, spans[1..])[i]
    {
      var x := spans[i + 1];
      SliceOfPrefix(t, m, x.start, x.end);
    }
  }

  /**
   * Putting each span's own characters back reproduces the text: together
   * with `SpliceAllIsReplace` this says that the output keeps every
   * character outside the spans, in order, and swaps each span for the
   * marker.
   */
  lemma {:induction false} ReplaceWithOriginals(t: string, spans: seq<Span>)
    requires RightToLeft(|t|, spans)
    ensures Replace(t, spans, Covered(t, spans)) == t
    decreases |spans|
  {
    if |spans| > 0 {
      var s := spans[0];
      var p := t[..s.start];
      CoveredTail(t, spans);
      ReplaceWithOriginals(p, spans[1..]);
      ThreePieces(t, s.start, s.end);
    }
  }

  /**
   * `len(re.findall(r'\[REDACTED\]', s))`: occurrences of the marker found
   * scanning left to right, each match resuming after its last character.
   */
  function CountMarker(s: string): (n: nat)
    ensures n * |Marker| <= |s|
    decreases |s|
  {
    if |s| < |Marker| then 0
    else if s[..|Marker|] == Marker then 1 + CountMarker(s[|Marker|..])
    else CountMarker(s[1..])
  }

  /** Text without a `[` holds no marker. */
  lemma {:induction false} NoBracketNoMarker(s: string)
    requires '[' !in s
    ensures CountMarker(s) == 0
  {
    if |s| >= |Marker| {
      assert s[..|Marker|][0] == s[0];
      assert forall c :: c in s[1..] ==> c in s;
      NoBracketNoMarker(s[1..]);
    }
  }

  /**
   * A marker spliced between two texts adds exactly one to the count: no
   * match can straddle its edges, since `[` occurs in the marker only at
   * its first character.
   */
  lemma {:induction false} CountAroundMarker(a: string, b: string)
    ensures CountMarker(a + Marker + b) == CountMarker(a) + 1 + CountMarker(b)
    decreases |a|
  {
    var s := a + Marker + b;
    if |a| == 0 {
      assert s == Marker + b;
      assert s[..|Marker|] == Marker;
      assert s[|Marker|..] == b;
    } else if |a| >= |Marker| {
      assert s[..|Marker|] == a[..|Marker|];
      if a[..|Marker|] == Marker {
        assert s[|Marker|..] == a[|Marker|..] + Marker + b;
        CountAroundMarker(a[|Marker|..], b);
      } else {
        assert s[1..] == a[1..] + Marker + b;
        CountAroundMarker(a[1..], b);
      }
    } else {
      assert s[..|Marker|][|a|] == '[';
      assert Marker[|a|] != '[';
      assert s[1..] == a[1..] + Marker + b;
      CountAroundMarker(a[1..], b);
    }
  }

  /**
   * With non-overlapping spans and no `[` in the original text, the rewrite
   * holds exactly one marker per span.
   */
  lemma {:induction false} ReplaceMarkerCount(t: string, spans: seq<Span>)
    requires RightToLeft(|t|, spans)
    requires '[' !in t
    ensures CountMarker(Replace(t, spans, Markers(|spans|))) == |spans|
    decreases |spans|
  {
    if |spans| == 0 {
      NoBracketNoMarker(t);
    } else {
      var s := spans[0];
      var p := t[..s.start];
      assert forall c :: c in p ==> c in t;
      assert forall c :: c in t[s.end..] ==> c in t;
      assert Markers(|spans|)[1..] == Markers(|spans| - 1);
      ReplaceMarkerCount(p, spans[1..]);
      NoBracketNoMarker(t[s.end..]);
      CountAroundMarker(Replace(p, spans[1..], Markers(|spans| - 1)), t[s.end..]);
    }
  }
}

=== FILE: text.dfy ===
/**
 * String operations of Python's `str` that the redactor and the response
 * handling rely on, stated over `seq<char>`: clamping slices, `find`,
 * `rfind`, `strip`, `join` and `split`.
 */
module TextOps {

  datatype Option<+T> = None | Some(value: T)

  /** `s[:i]` for a non-negative index: Python clamps an index past the end. */
  function Prefix(s: string, i: nat): (r: string)
    ensures |r| == if i <= |s| then i else |s|
    ensures r <= s
  {
    if i <= |s| then s[..i] else s
  }

  /** `s[j:]` for a non-negative index; empty when `j` is past the end. */
  function Suffix(s: string, j: nat): (r: string)
    ensures |r| == if j <= |s| then |s| - j else 0
    ensures j <= |s| ==> Prefix(s, j) + r == s
  {
    if j <= |s| then s[j..] else []
  }

  /** `s[i:j]` for non-negative indices, with Python's clamping. */
  function Slice(s: string, i: nat, j: nat): (r: string)
    ensures |r| <= |s|
    ensures i <= j <= |s| ==> |r| == j - i
  {
    var lo := if i <= |s| then i else |s|;
    var hi := if j <= |s| then j else |s|;
    if lo < hi then s[lo..hi] else []
  }

  /** `s.find(c)`: the first index holding `c`, or -1 when there is none. */
  function Find(s: string, c: char): (r: int)
    ensures -1 <= r < |s|
    ensures r == -1 <==> c !in s
    ensures 0 <= r ==> s[r] == c && forall j :: 0 <= j < r ==> s[j] != c
  {
    if |s| == 0 then -1
    else if s[0] == c then 0
    else
      var k := Find(s[1..], c);
      assert c in s ==> c in s[1..] by {
        if c in s {
          var j :| 0 <= j < |s| && s[j] == c;
          assert s[1..][j - 1] == c;
        }
      }
      if k == -1 then -1 else k + 1
  }

  /** `s.rfind(c)`: the last index holding `c`, or -1 when there is none. */
  function RFind(s: string, c: char): (r: int)
    ensures -1 <= r < |s|
    ensures r == -1 <==> c !in s
    ensures 0 <= r ==> s[r] == c && forall j :: r < j < |s| ==> s[j] != c
  {
    if |s| == 0 then -1
    else if s[|s| - 1] == c then |s| - 1
    else
      var k := RFind(s[..|s| - 1], c);
      assert c in s ==> c in s[..|s| - 1] by {
        if c in s {
          var j :| 0 <= j < |s| && s[j] == c;
          assert s[..|s| - 1][j] == c;
        }
      }
      k
  }

  /** The characters Python's `str.strip()` removes (`str.isspace`). */
  predicate IsSpace(c: char) {
    || c == ' ' || c == '\t' || c == '\n' || c == '\r'
    || c as int == 0x0B || c as int == 0x0C
    || 0x1C <= c as int <= 0x1F
    || c as int == 0x85 || c as int == 0xA0 || c as int == 0x1680
    || 0x2000 <= c as int <= 0x200A
    || c as int == 0x2028 || c as int == 0x2029 || c as int == 0x202F
    || c as int == 0x205F || c as int == 0x3000
  }

  predicate AllSpace(s: string) {
    forall i :: 0 <= i < |s| ==> IsSpace(s[i])
  }

  function StripLeft(s: string): (r: string)
    ensures |r| <= |s| && r == s[|s| - |r|..]
    ensures AllSpace(s[..|s| - |r|])
    ensures |r| > 0 ==> !IsSpace(r[0])
  {
    if |s| > 0 && IsSpace(s[0]) then StripLeft(s[1..]) else s
  }

  function StripRight(s: string): (r: string)
    ensures |r| <= |s| && r == s[..|r|]
    ensures AllSpace(s[|r|..])
    ensures |r| > 0 ==> !IsSpace(r[|r| - 1])
  {
    if |s| > 0 && IsSpace(s[|s| - 1]) then StripRight(s[..|s| - 1]) else s
  }

  /** Where `s.strip()` begins inside `s`: the length of the leading whitespace. */
  function StripStart(s: string): (lo: nat)
    ensures lo <= |s| && AllSpace(s[..lo])
  {
    |s| - |StripLeft(s)|
  }

  /**
   * `s.strip()`: the result is the contiguous piece of the input that starts
   * at `StripStart(s)`, with only whitespace cut away on both sides, and it
   * neither starts nor ends with whitespace.
   */
  function Strip(s: string): (r: string)
    ensures StripStart(s) + |r| <= |s|
    ensures r == s[StripStart(s)..StripStart(s) + |r|]
    ensures AllSpace(s[StripStart(s) + |r|..])
    ensures |r| > 0 ==> !IsSpace(r[0]) && !IsSpace(r[|r| - 1])
  {
    var left := StripLeft(s);
    var r := StripRight(left);
    SuffixSlices(s, |s| - |left|, |r|);
    r
  }

  /** Cutting the suffix from `lo` at `k` cuts the text at `lo + k`. */
  lemma SuffixSlices(s: string, lo: nat, k: nat)
    requires lo + k <= |s|
    ensures s[lo..][..k] == s[lo..lo + k]
    ensures s[lo..][k..] == s[lo + k..]
  {
  }

  /** A text is its three consecutive pieces put back together. */
  lemma ThreePieces(s: string, i: nat, j: nat)
    requires i <= j <= |s|
    ensures s == s[..i] + s[i..j] + s[j..]
  {
  }

  /** Slicing inside a prefix is slicing the text. */
  lemma SliceOfPrefix(s: string, m: nat, i: nat, j: nat)
    requires i <= j <= m <= |s|
    ensures s[..m][i..j] == s[i..j]
  {
  }

  /** `sep.join(xs)`: it starts with the first piece. */
  function Join(xs: seq<string>, sep: string): (r: string)
    ensures |xs| == 0 ==> r == []
    ensures |xs| > 0 ==> xs[0] <= r
  {
    if |xs| == 0 then []
    else if |xs| == 1 then xs[0]
    else xs[0] + sep + Join(xs[1..], sep)
  }

  /** `s.split(c)` for a one-character separator. */
  function Split(s: string, c: char): (r: seq<string>)
    ensures |r| >= 1
    ensures forall i :: 0 <= i < |r| ==> c !in r[i]
    decreases |s|
  {
    var k := Find(s, c);
    if k == -1 then [s] else [s[..k]] + Split(s[k + 1..], c)
  }

  /** Joining two non-empty runs of pieces puts one separator between them. */
  lemma {:induction false} JoinAppend(a: seq<string>, b: seq<string>, sep: string)
    requires |a| > 0 && |b| > 0
    ensures Join(a + b, sep) == Join(a, sep) + sep + Join(b, sep)
  {
    if |a| == 1 {
      assert (a + b)[1..] == b;
    } else {
      assert (a + b)[1..] == a[1..] + b;
      JoinAppend(a[1..], b, sep);
    }
  }

  /** Splitting undoes joining when no piece holds the separator. */
  lemma {:induction false} SplitJoin(xs: seq<string>, c: char)
    requires |xs| > 0
    requires forall i :: 0 <= i < |xs| ==> c !in xs[i]
    ensures Split(Join(xs, [c]), c) == xs
  {
    if |xs| > 1 {
      var s := Join(xs, [c]);
      assert s == xs[0] + [c] + Join(xs[1..], [c]);
      assert s[|xs[0]|] == c;
      assert s[..|xs[0]|] == xs[0];
      assert Find(s, c) == |xs[0]|;
      assert s[|xs[0]| + 1..] == Join(xs[1..], [c]);
      SplitJoin(xs[1..], c);
    }
  }
}
